=== FILE: README.md ===
# QuoteVault state logic in Dafny

QuoteVault is an Android quote-of-the-day app. Underneath its Compose
screens sit small pieces of sequential state logic. This project models
them as immutable Dafny datatypes and pure transition functions, and
proves what they promise. The clock, the current date, quote-API results
and identity-provider outcomes are all parameters. The pieces are:

- **Favourites.** The Room table of favourite quotes is modelled as a row
  sequence plus an autoincrement counter.
  - The DAO operations (`FavoriteDao`) and the repository toggle
    (`QuoteRepository`) work on it.
  - So do the two favourites view-models (`FavouritesScreen`,
    `FavouriteItems`).
  - Text is not a key, so a toggle made with a stale status can create
    duplicate rows, and a delete removes all of them.
- **Daily-quote cache.** The shared-preferences store (`Preferences`) is a
  map from key to value. It has three readers:
  - the current home view-model (`DailyQuote`);
  - the older round-robin buffer view-model (`QuoteBuffer`);
  - the notification receiver (`NotificationReceiver`).
- **Notifications.** The scheduler's "today, or tomorrow if already past"
  rule (`NotificationScheduler`), the settings view-model
  (`NotificationSettings`), and the 24-hour to 12-hour label
  (`TimeFormat`).
- **Start-up.** The recovery-link test and the one-shot choice of start
  screen (`StartupRouter`).
- **Authentication.** Result mapping in `AuthManager` (`Auth`) and the
  validation chains of the login, sign-up and new-password forms
  (`LoginForm`, `SignUpForm`, `NewPasswordForm`). Login includes the
  25-second password-reset cooldown.

Helper modules:

- `Wrappers`: `Option`.
- `Text`: Kotlin's `isBlank`, `contains` (plain and ignore-case) and
  decimal rendering.
- `Seqs`: `filter`.
- `Quotes`: the `Quote` record and the API outcome.

Source paths below are relative to `app/src/main/java/com/BrewApp/dailyquoteapp/` in the repository, written out in full.

## Model

| member | source | states |
|---|---|---|
| FavoriteDao.IsFavoriteRows | app/src/main/java/com/BrewApp/dailyquoteapp/data/db/AppDatabase.kt:22-23 | `isFavorite(t)` holds exactly when at least one stored row has text `t`. |
| FavoriteDao.IsFavoriteIffCounted | app/src/main/java/com/BrewApp/dailyquoteapp/data/db/AppDatabase.kt:22-23 | A text is present iff the number of rows carrying it is positive. |
| FavoriteDao.DeleteByText | app/src/main/java/com/BrewApp/dailyquoteapp/data/db/AppDatabase.kt:28-29 | After the delete the text is no longer a favourite. Rows with other texts are kept exactly, and no row is added. The id counter is untouched and valid keys stay valid. |
| FavoriteDao.DeleteByTextCount | app/src/main/java/com/BrewApp/dailyquoteapp/data/db/AppDatabase.kt:28-29 | The delete removes exactly as many rows as carry the text, so every duplicate goes. |
| FavoriteDao.InsertFresh | app/src/main/java/com/BrewApp/dailyquoteapp/data/db/AppDatabase.kt:9-13 | An entity with the default id gets the next generated key. The table grows by one even when the text is already present. That text's count rises by one, other counts stay, and keys stay distinct. |
| FavoriteDao.Replace | app/src/main/java/com/BrewApp/dailyquoteapp/data/db/AppDatabase.kt:25-26 | An insert with an explicit id leaves that entity as the only row with its id. Rows with other ids are kept, and the counter moves past the id. |
| FavoriteDao.ReplaceExistingKeepsSize | app/src/main/java/com/BrewApp/dailyquoteapp/data/db/AppDatabase.kt:10 | Inserting over an id that is already present replaces a row rather than adding one. |
| FavoriteDao.Insert | app/src/main/java/com/BrewApp/dailyquoteapp/data/db/AppDatabase.kt:22-26 | After `insert(e)` the text of `e` is a favourite and key validity is preserved. With the default id 0, `e` is stored under the next generated key, every old row is kept, and the table grows by one. The counter then advances by exactly one. With an explicit id, `e` becomes the only row with that key, and every old row with another key is kept. The only new row is the stored one: `e` itself, or `e` under the generated key. So an explicit id replaces a row and never adds a second one. |
| FavoriteDao.GetAllFavorites | app/src/main/java/com/BrewApp/dailyquoteapp/data/db/AppDatabase.kt:18-19 | The listing is a permutation of the table's rows, strictly descending by id. |
| QuoteRepository.FetchRandomQuotes | app/src/main/java/com/BrewApp/dailyquoteapp/data/repository/QuoteRepository.kt:13-20 | A failed API call yields exactly the single offline quote. A successful call yields the API list unchanged. |
| QuoteRepository.FetchEmptyOnlyFromApi | app/src/main/java/com/BrewApp/dailyquoteapp/data/repository/QuoteRepository.kt:13-20 | The fetch never fails. Its result is empty only when the API itself returned an empty list. |
| QuoteRepository.ToggleFavorite | app/src/main/java/com/BrewApp/dailyquoteapp/data/repository/QuoteRepository.kt:28-34 | Status true only deletes by the quote's text and never inserts. Status false inserts exactly one row with the quote's text and author and deletes nothing. Rows with other texts are unchanged either way. |
| QuoteRepository.ToggleKeepsOtherMembership | app/src/main/java/com/BrewApp/dailyquoteapp/data/repository/QuoteRepository.kt:25-34 | A toggle never changes whether any other text is a favourite. |
| QuoteRepository.ToggleWithTrueStatusNegates | app/src/main/java/com/BrewApp/dailyquoteapp/data/repository/QuoteRepository.kt:25-34 | Given the correct current status, a toggle negates the quote's membership. |
| QuoteRepository.ToggleTwiceRestores | app/src/main/java/com/BrewApp/dailyquoteapp/data/repository/QuoteRepository.kt:28-34 | Two toggles, each given the correct status, restore the original membership. |
| QuoteRepository.StaleToggleDuplicates | app/src/main/java/com/BrewApp/dailyquoteapp/data/repository/QuoteRepository.kt:28-34 | A toggle that wrongly believes a present text is absent leaves at least two rows with that text. |
| QuoteRepository.StaleDeleteIsNoOp | app/src/main/java/com/BrewApp/dailyquoteapp/data/repository/QuoteRepository.kt:28-31 | A toggle that wrongly believes an absent text is present changes no row. |
| Preferences.KeysDistinct | app/src/main/java/com/BrewApp/dailyquoteapp/data/local/PreferencesManager.kt:13-19 | The six preference keys are pairwise distinct. |
| Preferences.SaveDailyQuote | app/src/main/java/com/BrewApp/dailyquoteapp/data/local/PreferencesManager.kt:23-30 | Saving then reading gives back the quote's text and author, without its html. Afterwards "from today" holds exactly for the save date, and the notification settings are unchanged. |
| Preferences.GetDailyQuote | app/src/main/java/com/BrewApp/dailyquoteapp/data/local/PreferencesManager.kt:32-39 | The stored quote is present iff both the text key and the author key are present. |
| Preferences.NoDateNotToday | app/src/main/java/com/BrewApp/dailyquoteapp/data/local/PreferencesManager.kt:41-49 | With no stored date, no day counts as today. |
| Preferences.SetNotificationsEnabled | app/src/main/java/com/BrewApp/dailyquoteapp/data/local/PreferencesManager.kt:52-58 | The enabled flag round-trips. The time and the daily-quote keys are untouched. |
| Preferences.SetNotificationTime | app/src/main/java/com/BrewApp/dailyquoteapp/data/local/PreferencesManager.kt:60-71 | Any (hour, minute) round-trips. The flag and the daily-quote keys are untouched. |
| Preferences.EmptyStoreDefaults | app/src/main/java/com/BrewApp/dailyquoteapp/data/local/PreferencesManager.kt:32-71 | An empty store has no quote and no "today". Notifications default to off, and the time defaults to 8:00. |
| DailyQuote.LoadDailyQuote | app/src/main/java/com/BrewApp/dailyquoteapp/mainui/homescreen/viewmodel/HomeViewModel.kt:44-72 | Loading ends false on every path. A quote stored today is shown with no fetch and no save. Otherwise a non-empty fetch's first quote is both saved and shown, and an empty fetch changes nothing. The notification settings are never touched. |
| DailyQuote.GetNextQuote | app/src/main/java/com/BrewApp/dailyquoteapp/mainui/homescreen/viewmodel/HomeViewModel.kt:75-84 | A refresh shows the first quote of a fresh fetch. An empty result keeps the quote, and loading ends false. |
| DailyQuote.ToggleShown | app/src/main/java/com/BrewApp/dailyquoteapp/mainui/homescreen/viewmodel/HomeViewModel.kt:32-34 | With the correct flag the shown quote's favourite status is negated, and other texts' status is unchanged. |
| DailyQuote.CacheValidity | app/src/main/java/com/BrewApp/dailyquoteapp/mainui/homescreen/viewmodel/HomeViewModel.kt:49-60 | A record dated today is reused without a fetch. Any other date forces a fetch. |
| DailyQuote.SameDayRestartNoFetch | app/src/main/java/com/BrewApp/dailyquoteapp/mainui/homescreen/viewmodel/HomeViewModel.kt:44-72 | A second load on the same day reads what the first stored and does not fetch. The exception is a first load that got an empty batch. |
| DailyQuote.OfflineLoadStoresFallback | app/src/main/java/com/BrewApp/dailyquoteapp/mainui/homescreen/viewmodel/HomeViewModel.kt:59-66 | With the API unreachable, the repository's offline quote is stored as today's quote and shown. |
| DailyQuote.RefreshRefetches | app/src/main/java/com/BrewApp/dailyquoteapp/mainui/homescreen/viewmodel/HomeViewModel.kt:75-84 | For any non-empty batch, refresh fetches again rather than stepping through the batch, so the first quote shown on load is shown again. |
| DailyQuote.FavoriteFollowsQuote | app/src/main/java/com/BrewApp/dailyquoteapp/mainui/homescreen/viewmodel/HomeViewModel.kt:32-34 | The favourite flag is a function of the shown text. Moving away and back shows the toggled value. |
| QuoteBuffer.FetchQuotes | app/src/main/java/com/BrewApp/dailyquoteapp/mainui/HomeViewModel.kt:41-52 | A non-empty result replaces the buffer, resets the index to 0 and shows its first quote. An empty result keeps buffer, index and quote. Loading ends false, and the cursor invariant is kept. |
| QuoteBuffer.Rotate | app/src/main/java/com/BrewApp/dailyquoteapp/mainui/HomeViewModel.kt:55-57 | On a non-empty buffer, "next" moves the index to (index + 1) mod size. The buffer stays the same, and the shown quote is the one under the cursor. |
| QuoteBuffer.GetNextQuote | app/src/main/java/com/BrewApp/dailyquoteapp/mainui/HomeViewModel.kt:54-61 | "Next" rotates a non-empty buffer without fetching and fetches on an empty one. The cursor invariant is kept. |
| QuoteBuffer.RotateNIndex | app/src/main/java/com/BrewApp/dailyquoteapp/mainui/HomeViewModel.kt:56 | After n presses the index is the start index plus n, modulo the buffer size. |
| QuoteBuffer.RotateFullCycle | app/src/main/java/com/BrewApp/dailyquoteapp/mainui/HomeViewModel.kt:56 | As many presses as the buffer is long return to the starting index and quote. |
| QuoteBuffer.NextQuotes | app/src/main/java/com/BrewApp/dailyquoteapp/mainui/HomeViewModel.kt:54-61 | n presses show, in order, the buffer entries after the start index, wrapping round. |
| NotificationScheduler.NextTrigger | app/src/main/java/com/BrewApp/dailyquoteapp/util/NotificationScheduler.kt:42-52 | The trigger is today's hour and minute with zero seconds, or exactly one day later. The day is added only when today's instant is not after now. For a valid time, the trigger is after now and at most one day ahead. |
| NotificationScheduler.CancelNotification | app/src/main/java/com/BrewApp/dailyquoteapp/util/NotificationScheduler.kt:69-84 | Without a pending intent nothing changes. With one, the intent and its alarm are gone. |
| NotificationScheduler.ScheduleDailyNotification | app/src/main/java/com/BrewApp/dailyquoteapp/util/NotificationScheduler.kt:15-67 | Disabled notifications cancel and arm nothing. On API 31 and later, a missing exact-alarm permission returns without scheduling. Otherwise the alarm is armed iff the alarm call succeeds. An armed alarm fires at the next trigger of the stored hour and minute, after now and within a day. A failing alarm call creates the pending intent and keeps whatever alarm was armed before. |
| NotificationScheduler.OldDevicesNeedNoPermission | app/src/main/java/com/BrewApp/dailyquoteapp/util/NotificationScheduler.kt:26-31 | Below API 31 the permission is never consulted. |
| NotificationScheduler.CancelIdempotent | app/src/main/java/com/BrewApp/dailyquoteapp/util/NotificationScheduler.kt:69-84 | Cancelling twice is cancelling once. |
| NotificationSettings.LoadSettings | app/src/main/java/com/BrewApp/dailyquoteapp/mainui/preferences/viewmodel/PreferencesViewModel.kt:27-30 | Initialisation copies the enabled flag and the time from the store. |
| NotificationSettings.ToggleNotifications | app/src/main/java/com/BrewApp/dailyquoteapp/mainui/preferences/viewmodel/PreferencesViewModel.kt:32-41 | The state and the store both take the new flag, and the time is unchanged. Enabling runs the scheduler on the store as just updated and keeps the alarms it returns. Disabling cancels. State and store stay in sync. |
| NotificationSettings.UpdateTime | app/src/main/java/com/BrewApp/dailyquoteapp/mainui/preferences/viewmodel/PreferencesViewModel.kt:43-51 | The state and the store both take the new time, and the flag is unchanged. The daily-quote keys are untouched. It reschedules iff the view-model says notifications are enabled, and then runs the scheduler on the store carrying the new time and keeps the alarms it returns. Otherwise the alarms are untouched, and it never cancels. |
| NotificationSettings.UpdateTimeNeverCancels | app/src/main/java/com/BrewApp/dailyquoteapp/mainui/preferences/viewmodel/PreferencesViewModel.kt:47-50 | While state and store agree, a time change never reaches the scheduler's "disabled" branch. |
| NotificationSettings.UpdateTimeArmsNewTime | app/src/main/java/com/BrewApp/dailyquoteapp/mainui/preferences/viewmodel/PreferencesViewModel.kt:43-50 | A re-armed alarm fires at the new time, after now and within a day. |
| TimeFormat.AmPm | app/src/main/java/com/BrewApp/dailyquoteapp/mainui/preferences/ui/QuotePreferencesScreen.kt:200 | The suffix is "PM" iff hour ≥ 12. |
| TimeFormat.Hour12 | app/src/main/java/com/BrewApp/dailyquoteapp/mainui/preferences/ui/QuotePreferencesScreen.kt:201 | For hours 0..23 the 12-hour hour lies in 1..12 and agrees with the hour modulo 12. Hours 0 and 12 both show 12. |
| TimeFormat.Hour12RoundTrip | app/src/main/java/com/BrewApp/dailyquoteapp/mainui/preferences/ui/QuotePreferencesScreen.kt:200-201 | The hour of the day is recovered from its 12-hour hour and suffix. |
| TimeFormat.Hour24RoundTrip | app/src/main/java/com/BrewApp/dailyquoteapp/mainui/preferences/ui/QuotePreferencesScreen.kt:200-201 | Every 12-hour reading is the reading of exactly one hour of the day. |
| TimeFormat.LabelInjective | app/src/main/java/com/BrewApp/dailyquoteapp/mainui/preferences/ui/QuotePreferencesScreen.kt:200-201 | The pair (12-hour hour, suffix) determines the hour uniquely over 0..23. |
| TimeFormat.MidnightAndNoon | app/src/main/java/com/BrewApp/dailyquoteapp/mainui/preferences/ui/QuotePreferencesScreen.kt:200-201 | Hour 0 shows (12, AM) and hour 12 shows (12, PM). |
| TimeFormat.Pad2TwoDigits | app/src/main/java/com/BrewApp/dailyquoteapp/mainui/preferences/ui/QuotePreferencesScreen.kt:202 | `%02d` of 0..99 is two digits that read back as the number. |
| TimeFormat.FormatTimeLayout | app/src/main/java/com/BrewApp/dailyquoteapp/mainui/preferences/ui/QuotePreferencesScreen.kt:198-202 | For a valid time the label is `hh:mm XM`, eight characters, and the hour and minute read back from it. |
| NotificationReceiver.ComposeNotification | app/src/main/java/com/BrewApp/dailyquoteapp/util/NotificationReceiver.kt:85-89 | The title is fixed. The text is the quote in double quotes, and the expanded text adds a line `- author`. |
| NotificationReceiver.SelectQuote | app/src/main/java/com/BrewApp/dailyquoteapp/util/NotificationReceiver.kt:32-49 | A quote from today is reused with no fetch and no save. Otherwise a non-empty fetch's first quote is saved and used. A failed fetch uses the stale stored quote, or the fixed fallback, and saves nothing. An empty fetch keeps whatever is stored. |
| NotificationReceiver.OnReceive | app/src/main/java/com/BrewApp/dailyquoteapp/util/NotificationReceiver.kt:21-57 | The alarm is re-armed from the store as it was on arrival. A notification is posted exactly when a quote was selected, built from that quote. |
| NotificationReceiver.ScheduleOrderIrrelevant | app/src/main/java/com/BrewApp/dailyquoteapp/util/NotificationReceiver.kt:23-41 | Selecting the quote never touches what the scheduler reads, so re-arming first loses nothing. |
| NotificationReceiver.FailedFetchNothingStored | app/src/main/java/com/BrewApp/dailyquoteapp/util/NotificationReceiver.kt:42-47 | A failed fetch with nothing stored posts ("Start your day with positivity.", "QuoteVault"). |
| NotificationReceiver.FailedFetchStaleStored | app/src/main/java/com/BrewApp/dailyquoteapp/util/NotificationReceiver.kt:42-47 | A failed fetch with a stale stored quote posts it and saves nothing. |
| NotificationReceiver.EmptyFetchNothingStoredPostsNothing | app/src/main/java/com/BrewApp/dailyquoteapp/util/NotificationReceiver.kt:37-52 | An empty batch with nothing stored leaves no quote, so the `!!` fails and nothing is posted. |
| NotificationReceiver.OnReceiveWithFallback | app/src/main/java/com/BrewApp/dailyquoteapp/util/NotificationReceiver.kt:42-52 | With the fallback applied whenever no quote is available, a notification is always posted. Wherever the receiver as written posts, it posts the same thing. |
| NotificationReceiver.EmptyFetchNothingStoredPostsFallback | app/src/main/java/com/BrewApp/dailyquoteapp/util/NotificationReceiver.kt:37-52 | With the fallback applied, an empty batch and an empty store post the fallback quote. |
| StartupRouter.Resolve | app/src/main/java/com/BrewApp/dailyquoteapp/MainActivity.kt:47-73 | After the check the gate is open. A recovery link routes to the new-password screen whatever the session. Otherwise the route is Home iff a user is signed in, and Login if not. |
| StartupRouter.Render | app/src/main/java/com/BrewApp/dailyquoteapp/MainActivity.kt:75-79 | The navigation graph is drawn iff the check is done, starting at the chosen destination. Before that only the placeholder is drawn. |
| StartupRouter.OnNewIntent | app/src/main/java/com/BrewApp/dailyquoteapp/MainActivity.kt:85-102 | A new intent evaluates the same recovery test and leaves the router unchanged. |
| StartupRouter.NothingBeforeCheck | app/src/main/java/com/BrewApp/dailyquoteapp/MainActivity.kt:44-45 | A fresh activity shows only the placeholder. |
| StartupRouter.NoDataIsNotRecovery | app/src/main/java/com/BrewApp/dailyquoteapp/MainActivity.kt:52-55 | Without intent data every comparison fails, so the route is Home or Login by session. |
| StartupRouter.RecoveryBeatsSession | app/src/main/java/com/BrewApp/dailyquoteapp/MainActivity.kt:62-64 | Signed in or not, a recovery link opens the new-password screen. |
| StartupRouter.SessionErrorGoesToLogin | app/src/main/java/com/BrewApp/dailyquoteapp/MainActivity.kt:65-71 | A session query that throws lands a non-recovery start on Login. |
| StartupRouter.NewIntentKeepsDestination | app/src/main/java/com/BrewApp/dailyquoteapp/MainActivity.kt:92-102 | A recovery link arriving while running is recognised but does not move the start destination. |
| StartupRouter.FragmentTestRedundant | app/src/main/java/com/BrewApp/dailyquoteapp/MainActivity.kt:52-55 | When the fragment is printed at the end of the URI, the recovery test is equivalent to the other three alternatives. Those are: the URI has "type=recovery"; the host is "reset-password"; or the host is "login-callback" and the URI has "recovery" (`&&` binding tighter than `\|\|`). |
| Auth.SessionErrorIsLoggedOut | app/src/main/java/com/BrewApp/dailyquoteapp/data/auth/AuthManager.kt:12-19 | Only an existing current user counts as signed in. A provider exception counts as signed out. |
| Auth.ErrorOr | app/src/main/java/com/BrewApp/dailyquoteapp/data/auth/AuthManager.kt:39-41 | Success exactly when the provider returns. An exception's message is used when present, and the default only when it is missing. |
| Auth.SignUp | app/src/main/java/com/BrewApp/dailyquoteapp/data/auth/AuthManager.kt:32-43 | Success iff the call returns. Otherwise the message, or "Sign up failed" only when it is missing. |
| Auth.SignOut | app/src/main/java/com/BrewApp/dailyquoteapp/data/auth/AuthManager.kt:68-76 | Success iff the call returns. Otherwise the message, or "Sign out failed" only when it is missing. |
| Auth.ResetPassword | app/src/main/java/com/BrewApp/dailyquoteapp/data/auth/AuthManager.kt:79-87 | Success iff the call returns. Otherwise the message, or "Password reset failed" only when it is missing. |
| Auth.SignInErrorText | app/src/main/java/com/BrewApp/dailyquoteapp/data/auth/AuthManager.kt:56-63 | The message reported for a failed sign-in is never blank. |
| Auth.SignIn | app/src/main/java/com/BrewApp/dailyquoteapp/data/auth/AuthManager.kt:46-65 | Success iff the call returns. An error message is never blank. |
| Auth.SignInMapping | app/src/main/java/com/BrewApp/dailyquoteapp/data/auth/AuthManager.kt:56-63 | A message containing "Email not confirmed" (ignoring case) reports the verify-email text. Failing that, one containing "Invalid login credentials" reports "Invalid email or password.". Any other message passes through, with "Sign in failed" for blank ones. |
| Auth.UnconfirmedTakesPrecedence | app/src/main/java/com/BrewApp/dailyquoteapp/data/auth/AuthManager.kt:57-60 | A message naming both problems reports the unconfirmed email. |
| Auth.BlankMessageHandling | app/src/main/java/com/BrewApp/dailyquoteapp/data/auth/AuthManager.kt:41-85 | Sign-in replaces a blank or missing message. Sign-up, sign-out and reset replace only a missing one and pass a blank one through. |
| LoginForm.UpdateEmail | app/src/main/java/com/BrewApp/dailyquoteapp/mainui/loginscreen/viewmodel/LoginViewModel.kt:28-30 | Only the email changes. |
| LoginForm.UpdatePassword | app/src/main/java/com/BrewApp/dailyquoteapp/mainui/loginscreen/viewmodel/LoginViewModel.kt:32-34 | Only the password changes. |
| LoginForm.Login | app/src/main/java/com/BrewApp/dailyquoteapp/mainui/loginscreen/viewmodel/LoginViewModel.kt:36-53 | A blank email or password gives "Please fill in all fields" and no sign-in call. Otherwise the form passes through Loading and ends in Success iff sign-in returned. Otherwise it ends in `Error` carrying exactly the message sign-in reported, which is never blank. The final state is the second state emitted. |
| LoginForm.ResetPasswordWithEmail | app/src/main/java/com/BrewApp/dailyquoteapp/mainui/loginscreen/viewmodel/LoginViewModel.kt:65-103 | The checks run in order: blank, then format, then a 25 s cooldown with the remaining-seconds message. The provider is called iff all three pass. An accepted request emits Loading and then its final state. Success ends in PasswordResetSent and keeps the stamp at now. A provider error ends in `Error` with exactly the message the reset reported. The stamp stays at now iff that message contains "wait" (ignoring case), and is cleared to 0 otherwise. |
| LoginForm.ResetPasswordStored | app/src/main/java/com/BrewApp/dailyquoteapp/mainui/loginscreen/viewmodel/LoginViewModel.kt:56-62 | A blank stored email gives "Please enter your email" and no call. |
| LoginForm.ResetPasswordDelegates | app/src/main/java/com/BrewApp/dailyquoteapp/mainui/loginscreen/viewmodel/LoginViewModel.kt:56-69 | The older entry point behaves exactly like the new one given the stored email. |
| LoginForm.ResetState | app/src/main/java/com/BrewApp/dailyquoteapp/mainui/loginscreen/viewmodel/LoginViewModel.kt:105-107 | The state becomes Idle and nothing else changes. |
| LoginForm.RemainingSecondsRange | app/src/main/java/com/BrewApp/dailyquoteapp/mainui/loginscreen/viewmodel/LoginViewModel.kt:78-82 | While the cooldown holds and elapsed ≥ 0, the remaining seconds lie in 0..25 and are the truncated quotient. |
| LoginForm.WaitMessageCarriesSeconds | app/src/main/java/com/BrewApp/dailyquoteapp/mainui/loginscreen/viewmodel/LoginViewModel.kt:81-82 | The cooldown message starts "Please wait ", and the seconds read back from its digits. |
| LoginForm.CooldownBlocksRetry | app/src/main/java/com/BrewApp/dailyquoteapp/mainui/loginscreen/viewmodel/LoginViewModel.kt:78-92 | After a successful request, any request within 25 s is refused without a call. |
| LoginForm.FailureAllowsRetry | app/src/main/java/com/BrewApp/dailyquoteapp/mainui/loginscreen/viewmodel/LoginViewModel.kt:94-99 | After an error that does not mention "wait", the next well-formed request goes through. |
| LoginForm.WaitMessageKeepsCooldown | app/src/main/java/com/BrewApp/dailyquoteapp/mainui/loginscreen/viewmodel/LoginViewModel.kt:94-99 | After an error that mentions "wait", the cooldown still holds. |
| SignUpForm.UpdateFullName | app/src/main/java/com/BrewApp/dailyquoteapp/mainui/signupscreen/viewmodel/SignUpViewModel.kt:27-29 | Only the full name changes. |
| SignUpForm.UpdateEmail | app/src/main/java/com/BrewApp/dailyquoteapp/mainui/signupscreen/viewmodel/SignUpViewModel.kt:31-33 | Only the email changes. |
| SignUpForm.UpdatePassword | app/src/main/java/com/BrewApp/dailyquoteapp/mainui/signupscreen/viewmodel/SignUpViewModel.kt:35-37 | Only the password changes. |
| SignUpForm.SignUp | app/src/main/java/com/BrewApp/dailyquoteapp/mainui/signupscreen/viewmodel/SignUpViewModel.kt:39-61 | A blank field gives "Please fill in all fields". A password under 6 characters then gives the length message, with no call. Valid input sends only (email, password) and passes through Loading to Success iff sign-up returned, or to the error message. |
| SignUpForm.ResetState | app/src/main/java/com/BrewApp/dailyquoteapp/mainui/signupscreen/viewmodel/SignUpViewModel.kt:63-65 | The state becomes Idle and the fields are kept. |
| SignUpForm.BlankBeforeLength | app/src/main/java/com/BrewApp/dailyquoteapp/mainui/signupscreen/viewmodel/SignUpViewModel.kt:40-48 | The blank check takes precedence over the length check. |
| SignUpForm.SpacesPasswordIsBlank | app/src/main/java/com/BrewApp/dailyquoteapp/mainui/signupscreen/viewmodel/SignUpViewModel.kt:40-43 | Six spaces count as blank, not as a long-enough password. |
| SignUpForm.RequestUsesLatestFields | app/src/main/java/com/BrewApp/dailyquoteapp/mainui/signupscreen/viewmodel/SignUpViewModel.kt:27-52 | The provider receives the last email and password set, and never the name. |
| SignUpForm.BlankProviderMessageShown | app/src/main/java/com/BrewApp/dailyquoteapp/mainui/signupscreen/viewmodel/SignUpViewModel.kt:56-58 | A blank provider message is shown blank. |
| NewPasswordForm.Validate | app/src/main/java/com/BrewApp/dailyquoteapp/mainui/loginscreen/ui/NewPasswordScreen.kt:184-194 | Either field blank gives "Please fill in all fields". Otherwise a mismatch gives "Passwords do not match", otherwise a length under 6 gives the length message. Input is accepted iff all three checks pass. |
| NewPasswordForm.Submit | app/src/main/java/com/BrewApp/dailyquoteapp/mainui/loginscreen/ui/NewPasswordScreen.kt:184-219 | The update is attempted only when validation passes. Success shows "Password updated successfully!" and leaves the screen. Failure shows "Error: " plus the message or "Failed to update password". Loading ends false either way. |
| NewPasswordForm.AcceptedMeetsRequirements | app/src/main/java/com/BrewApp/dailyquoteapp/mainui/loginscreen/ui/NewPasswordScreen.kt:174-194 | Accepted input lights both requirement indicators. |
| NewPasswordForm.IndicatorsDoNotImplyAccepted | app/src/main/java/com/BrewApp/dailyquoteapp/mainui/loginscreen/ui/NewPasswordScreen.kt:174-186 | Six spaces light both indicators yet are rejected as blank. |
| NewPasswordForm.IndicatorsAgreeOnNonBlank | app/src/main/java/com/BrewApp/dailyquoteapp/mainui/loginscreen/ui/NewPasswordScreen.kt:174-194 | For non-blank fields, acceptance is exactly "both indicators lit". |
| FavouritesScreen.Favorites | app/src/main/java/com/BrewApp/dailyquoteapp/mainui/favouritescreen/viewmodel/FavouriteViewModel.kt:26-31 | Each emission is the table's rows, strictly descending by id. |
| FavouritesScreen.RemoveFavorite | app/src/main/java/com/BrewApp/dailyquoteapp/mainui/favouritescreen/viewmodel/FavouriteViewModel.kt:33-40 | Removal is the toggle with status true on (text, author). It removes every row with the text, keeps all others, never inserts and consumes no id. |
| FavouritesScreen.RemoveTakesDuplicates | app/src/main/java/com/BrewApp/dailyquoteapp/mainui/favouritescreen/viewmodel/FavouriteViewModel.kt:36-38 | Removing one row of a duplicated text removes the copies with other ids too. |
| FavouritesScreen.ListingAfterRemove | app/src/main/java/com/BrewApp/dailyquoteapp/mainui/favouritescreen/viewmodel/FavouriteViewModel.kt:26-40 | The listing after a removal shows only old rows and none with the removed text. |
| FavouriteItems.LoadFavourites | app/src/main/java/com/BrewApp/dailyquoteapp/mainui/FavouriteViewModel.kt:21-49 | Loading comes first, then Success for a non-empty list, Empty for an empty one, or Error("Failed to load favourites") on an exception. |
| FavouriteItems.RemoveFavourite | app/src/main/java/com/BrewApp/dailyquoteapp/mainui/FavouriteViewModel.kt:51-66 | Only Success changes. It becomes Empty iff every item has the id. Otherwise it becomes Success of the list without those items, in the original order. Success is never empty. |
| FavouriteItems.RemoveKeepsOrder | app/src/main/java/com/BrewApp/dailyquoteapp/mainui/FavouriteViewModel.kt:58 | The remaining items keep their original order. |
| FavouriteItems.RemoveAbsentIsNoOp | app/src/main/java/com/BrewApp/dailyquoteapp/mainui/FavouriteViewModel.kt:56-63 | Removing an id no item has changes nothing. |
| FavouriteItems.RemoveIdempotent | app/src/main/java/com/BrewApp/dailyquoteapp/mainui/FavouriteViewModel.kt:56-63 | Removing twice is removing once. |
| FavouriteItems.SampleItems | app/src/main/java/com/BrewApp/dailyquoteapp/mainui/FavouriteViewModel.kt:29-38 | The built-in list has three items, all stamped with the single clock reading the model takes (see "## Left out"). |
| FavouriteItems.SampleLoadSucceeds | app/src/main/java/com/BrewApp/dailyquoteapp/mainui/FavouriteViewModel.kt:29-44 | With the built-in list, loading ends in Success with those items. |

## Left out

- Compose UI, the navigation graph, theming, and the permission launcher and dialogs of the screens: rendering only. The new-password screen and the preferences screen contribute just their validation and time label.
- Coroutine interleavings, `flatMapLatest` timing and `StateFlow` sharing: each launched block is taken to run to completion in sequence. The home screen's favourite flag is therefore read as current membership. Its initial `false` before the first database emission is a constant (`DailyQuote.InitialIsFavorite`). A toggle made while that value still lags is covered through the `observed` parameter.
- Network, the Supabase client and Retrofit: every call is an outcome parameter. A fetch either gives a list or fails, and a provider call either completes or throws with an optional message.
- `getCurrentUserEmail` in `AuthManager`: it only forwards a provider value and decides nothing.
- Calendar arithmetic, time zones and daylight saving: a day is a constant 86 400 000 ms, and the start of the current day is supplied with the clock.
- NotificationScheduler.NextTrigger: "after now" and "at most one day ahead" hold only in the model's one-clock, constant-day setting. Across a daylight-saving change the real calendar day differs. The source also takes two clock readings: the calendar for the day and the candidate instant, then `System.currentTimeMillis()` for the comparison. If midnight passes between them, a 00:00 trigger is moved to the next day, which is already the present, so the alarm fires at once. The model takes a single `Clock` and does not capture that.
- Alarm delivery and notification posting by the OS, the boot receiver and the widget are platform plumbing. The notification is modelled as its three text fields.
- `android.util.Patterns.EMAIL_ADDRESS` is the function parameter `isEmail`.
- `isBlank` uses a fixed whitespace set and ignore-case `contains` uses ASCII case folding. String length is counted in code points rather than UTF-16 units.
- LoginForm.ResetPasswordWithEmail: the source reads the clock twice, once for the cooldown check and once for the stamp. The model uses one reading `now` for both.
- LoginForm.RemainingSeconds: the Long-to-Int conversion of the remaining seconds is not modelled. It would matter only for a clock more than about 68 years behind the stamp.
- Integers are unbounded: Room's `Int` ids and the preferences' `Int` hour and minute do not wrap.
- A preference stored under one of the six keys with a value of the wrong type is treated as absent. Android would throw a `ClassCastException`.
- `Screens.NewPassword` is used by the start-up code but not declared in `navigation/Screens.kt`. The model uses a local route enumeration that includes it.
- The home view-model's `try`/`catch` around the fetch catches nothing in practice, because the repository never throws: a failed API call already becomes the offline quote. So on a day with no stored quote, the home screen stores and shows "Failure is simply the opportunity to begin again." when offline, and does not keep the placeholder.
- DailyQuote.LoadDailyQuote: the source reads the current date twice, once for the "from today" check and again when saving after the fetch. The model uses one date `today` for both, so a fetch that spans midnight, which would stamp the next day, is not modelled.
- NotificationReceiver.SelectQuote: as for the home screen, the date is read twice around the fetch in the source. The model uses one `today` for the check and the save stamp, so a fetch that spans midnight is not modelled.
- FavouriteItems.SampleItems: the source reads `System.currentTimeMillis()` separately for each of the three items. The model uses one reading `now` for all three, so it does not capture stamps that differ by a few milliseconds.
- Discovery, profile and share-image logic are outside the modelled core.

## Findings

| source | as written | input that shows it | evidently intended | confidence | as-written member | corrected member |
|---|---|---|---|---|---|---|
| app/src/main/java/com/BrewApp/dailyquoteapp/util/NotificationReceiver.kt:37-52 | The fallback quote is used only when the API call throws. An empty batch with nothing stored leaves `quote` null, and `quote!!` throws. The exception is raised inside a bare `CoroutineScope(Dispatchers.IO).launch` with no handler, so it crashes the app process and no notification is posted. | Stored quote absent, stored date not today, API returns `[]` | Post the fixed fallback quote whenever no quote is available | medium, not executed | NotificationReceiver.EmptyFetchNothingStoredPostsNothing | NotificationReceiver.OnReceiveWithFallback |

=== FILE: auth.dfy ===
/**
  `AuthManager`: each identity-provider call is abstracted to "returned" or
  "threw, with an optional message", and mapped to an `AuthResult`.
*/
module Auth {
  import opened Wrappers
  import opened Text

  datatype ProviderOutcome = Completed | Threw(message: Option<string>)

  datatype AuthResult = Success | Error(message: string)

  /** The provider's current-user query: a user, no user, or an exception. */
  datatype SessionOutcome = HasUser | NoUser | SessionThrew

  const SignInFailed := "Sign in failed"
  const SignUpFailed := "Sign up failed"
  const SignOutFailed := "Sign out failed"
  const ResetFailed := "Password reset failed"
  const UnconfirmedText := "Please verify your email address to login."
  const BadCredentialsText := "Invalid email or password."

  /** `isUserLoggedIn()`: a current user exists; an exception counts as logged out. */
  predicate IsUserLoggedIn(s: SessionOutcome) {
    s == HasUser
  }

  /** A failed session query is never mistaken for a signed-in user. */
  lemma SessionErrorIsLoggedOut()
    ensures !IsUserLoggedIn(SessionThrew) && !IsUserLoggedIn(NoUser) && IsUserLoggedIn(HasUser)
  {
  }

  /** The `e.message ?: default` pattern shared by sign-up, sign-out and reset. */
  function ErrorOr(o: ProviderOutcome, default: string): (r: AuthResult)
    ensures r.Success? <==> o.Completed?
    ensures o.Threw? && o.message.Some? ==> r == Error(o.message.value)
    ensures o.Threw? && o.message.None? ==> r == Error(default)
  {
    match o
    case Completed => Success
    case Threw(message) => Error(message.GetOr(default))
  }

  function SignUp(o: ProviderOutcome): (r: AuthResult)
    ensures r.Success? <==> o.Completed?
    ensures o.Threw? ==> r.message == (if o.message.Some? then o.message.value else SignUpFailed)
  {
    ErrorOr(o, SignUpFailed)
  }

  function SignOut(o: ProviderOutcome): (r: AuthResult)
    ensures r.Success? <==> o.Completed?
    ensures o.Threw? ==> r.message == (if o.message.Some? then o.message.value else SignOutFailed)
  {
    ErrorOr(o, SignOutFailed)
  }

  function ResetPassword(o: ProviderOutcome): (r: AuthResult)
    ensures r.Success? <==> o.Completed?
    ensures o.Threw? ==> r.message == (if o.message.Some? then o.message.value else ResetFailed)
  {
    ErrorOr(o, ResetFailed)
  }

  /**
    The message `signIn()` reports for a provider message `m` (empty when
    the provider gave none): an unconfirmed email wins over bad
    credentials; any other message passes through unless it is blank.
  */
  function SignInErrorText(m: string): (r: string)
    ensures !IsBlank(r)
  {
    if ContainsIgnoreCase(m, "Email not confirmed") then
      assert !IsWhitespace(UnconfirmedText[0]);
      UnconfirmedText
    else if ContainsIgnoreCase(m, "Invalid login credentials") then
      assert !IsWhitespace(BadCredentialsText[0]);
      BadCredentialsText
    else if IsBlank(m) then
      assert !IsWhitespace(SignInFailed[0]);
      SignInFailed
    else m
  }

  /** `signIn()`. */
  function SignIn(o: ProviderOutcome): (r: AuthResult)
    ensures r.Success? <==> o.Completed?
    ensures r.Error? ==> !IsBlank(r.message)
  {
    match o
    case Completed => Success
    case Threw(message) => Error(SignInErrorText(message.GetOr("")))
  }

  /** How a sign-in error message is classified. */
  lemma SignInMapping(m: string)
    ensures ContainsIgnoreCase(m, "Email not confirmed") ==> SignIn(Threw(Some(m))) == Error(UnconfirmedText)
    ensures !ContainsIgnoreCase(m, "Email not confirmed") && ContainsIgnoreCase(m, "Invalid login credentials") ==>
      SignIn(Threw(Some(m))) == Error(BadCredentialsText)
    ensures !ContainsIgnoreCase(m, "Email not confirmed") && !ContainsIgnoreCase(m, "Invalid login credentials") ==>
      SignIn(Threw(Some(m))) == Error(if IsBlank(m) then SignInFailed else m)
  {
  }

  /** A message naming both problems is reported as the unconfirmed email. */
  lemma UnconfirmedTakesPrecedence(m: string)
    requires ContainsIgnoreCase(m, "Email not confirmed") && ContainsIgnoreCase(m, "Invalid login credentials")
    ensures SignIn(Threw(Some(m))) == Error(UnconfirmedText)
  {
  }

  /**
    Sign-in never reports a blank message, but the other actions pass a
    blank provider message through: only a missing one is replaced.
  */
  lemma BlankMessageHandling()
    ensures SignIn(Threw(Some(" "))) == Error(SignInFailed)
    ensures SignIn(Threw(None)) == Error(SignInFailed)
    ensures SignUp(Threw(Some(""))) == Error("")
    ensures SignOut(Threw(Some(" "))) == Error(" ")
    ensures ResetPassword(Threw(None)) == Error(ResetFailed)
  {
    ContainsTooLong(Lower(" "), Lower("Email not confirmed"));
    ContainsTooLong(Lower(" "), Lower("Invalid login credentials"));
    ContainsTooLong(Lower(""), Lower("Email not confirmed"));
    ContainsTooLong(Lower(""), Lower("Invalid login credentials"));
  }
}

=== FILE: daily_quote.dfy ===
/**
  The current home view-model (`homescreen/viewmodel/HomeViewModel`): once
  a day it either reuses the stored quote or fetches a batch and stores the
  first; "next quote" always fetches afresh and never stores. Each launched
  block is taken as running to completion; the loading flag is reported as
  it stands when the block ends.
*/
module DailyQuote {
  import opened Wrappers
  import opened Quotes
  import opened FavoriteDao
  import opened Preferences
  import opened QuoteRepository

  datatype HomeState = HomeState(currentQuote: Quote, isLoading: bool)

  /** Before the first load: the placeholder quote, loading. */
  const InitialHome: HomeState := HomeState(LoadingQuote, true)

  /** The value the favourite flag holds before its first emission. */
  const InitialIsFavorite := false

  /**
    One run of `loadDailyQuote`: the new state, the store afterwards, and
    whether the quote API was called.
  */
  datatype LoadResult = LoadResult(state: HomeState, prefs: Store, fetched: bool)

  /** The stored quote, when it is dated today and both of its fields are present. */
  function CachedToday(prefs: Store, today: string): Option<Quote> {
    if IsQuoteFromToday(prefs, today) then GetDailyQuote(prefs) else None
  }

  /** `loadDailyQuote()`. */
  function LoadDailyQuote(st: HomeState, prefs: Store, today: string, api: ApiOutcome): (r: LoadResult)
    ensures !r.state.isLoading
    ensures r.fetched <==> CachedToday(prefs, today).None?
    ensures !r.fetched ==> r.prefs == prefs && r.state.currentQuote == CachedToday(prefs, today).value
    ensures r.fetched && |FetchRandomQuotes(api)| > 0 ==>
      var first := FetchRandomQuotes(api)[0];
      && r.state.currentQuote == first
      && GetDailyQuote(r.prefs) == Some(MakeQuote(first.text, first.author))
      && IsQuoteFromToday(r.prefs, today)
    ensures r.fetched && |FetchRandomQuotes(api)| == 0 ==> r.prefs == prefs && r.state.currentQuote == st.currentQuote
    ensures NotificationSettingsOf(r.prefs) == NotificationSettingsOf(prefs)
  {
    match CachedToday(prefs, today)
    case Some(stored) => LoadResult(HomeState(stored, false), prefs, false)
    case None =>
      var quotes := FetchRandomQuotes(api);
      if |quotes| > 0 then
        LoadResult(HomeState(quotes[0], false), SaveDailyQuote(prefs, quotes[0], today), true)
      else
        LoadResult(st.(isLoading := false), prefs, true)
  }

  /** `getNextQuote()`: a fresh fetch whose first quote is shown; the store is not an input, so nothing is saved. */
  function GetNextQuote(st: HomeState, api: ApiOutcome): (r: HomeState)
    ensures !r.isLoading
    ensures |FetchRandomQuotes(api)| > 0 ==> r.currentQuote == FetchRandomQuotes(api)[0]
    ensures |FetchRandomQuotes(api)| == 0 ==> r.currentQuote == st.currentQuote
  {
    var quotes := FetchRandomQuotes(api);
    if |quotes| > 0 then HomeState(quotes[0], false) else st.(isLoading := false)
  }

  /** The derived `isFavorite` flag: membership of the shown quote's text. */
  predicate IsFavoriteShown(st: HomeState, t: Table) {
    IsFavorite(t, st.currentQuote.text)
  }

  /**
    `toggleFavorite()`: the repository toggle on the shown quote with the
    flag's current value `observed`, which may lag behind the table.
  */
  function ToggleShown(st: HomeState, t: Table, observed: bool): (r: Table)
    ensures observed == IsFavoriteShown(st, t) ==> IsFavoriteShown(st, r) == !IsFavoriteShown(st, t)
    ensures forall other: string :: other != st.currentQuote.text ==> (IsFavorite(r, other) <==> IsFavorite(t, other))
  {
    var r := ToggleFavorite(t, st.currentQuote, observed);
    assert forall other: string :: other != st.currentQuote.text ==> (IsFavorite(r, other) <==> IsFavorite(t, other)) by {
      forall other: string | other != st.currentQuote.text
        ensures IsFavorite(r, other) <==> IsFavorite(t, other)
      {
        ToggleKeepsOtherMembership(t, st.currentQuote, observed, other);
      }
    }
    r
  }

  /** Cache validity: a record dated today is reused with no fetch; any other date forces a fetch. */
  lemma CacheValidity(prefs: Store, st: HomeState, d1: string, d2: string, api: ApiOutcome)
    requires GetDailyQuote(prefs).Some? && GetLastQuoteDate(prefs) == Some(d1)
    requires d1 != d2
    ensures !LoadDailyQuote(st, prefs, d1, api).fetched
    ensures LoadDailyQuote(st, prefs, d1, api).state.currentQuote == GetDailyQuote(prefs).value
    ensures LoadDailyQuote(st, prefs, d2, api).fetched
  {
  }

  /**
    Same-day restart: a second load on the same day, reading what the first
    stored, never fetches, unless the first load found an empty batch.
  */
  lemma {:induction false} SameDayRestartNoFetch(prefs: Store, today: string, api1: ApiOutcome, api2: ApiOutcome)
    requires api1 != Fetched([])
    ensures
      var first := LoadDailyQuote(InitialHome, prefs, today, api1);
      var second := LoadDailyQuote(InitialHome, first.prefs, today, api2);
      !second.fetched && second.state.currentQuote == first.state.currentQuote.(html := None)
  {
    FetchEmptyOnlyFromApi(api1);
    var first := LoadDailyQuote(InitialHome, prefs, today, api1);
    if !first.fetched {
      assert CachedToday(prefs, today).Some?;
      assert first.state.currentQuote.html == None;
    }
  }

  /**
    With the API unreachable, the repository's offline quote is stored as
    today's quote and shown: a failed call is not distinguishable from a
    successful one here.
  */
  lemma OfflineLoadStoresFallback(st: HomeState, prefs: Store, today: string)
    requires CachedToday(prefs, today).None?
    ensures LoadDailyQuote(st, prefs, today, Failed).state.currentQuote == OfflineQuote
    ensures GetDailyQuote(LoadDailyQuote(st, prefs, today, Failed).prefs) == Some(OfflineQuote)
  {
  }

  /**
    Refresh re-fetches rather than rotating: loading on a fresh day and then
    asking for the next quote with the same batch shows its first quote
    both times.
  */
  lemma RefreshRefetches(st: HomeState, prefs: Store, today: string, batch: seq<Quote>)
    requires CachedToday(prefs, today).None? && |batch| > 0
    ensures
      var loaded := LoadDailyQuote(st, prefs, today, Fetched(batch));
      && loaded.state.currentQuote == batch[0]
      && GetNextQuote(loaded.state, Fetched(batch)).currentQuote == batch[0]
  {
  }

  /**
    Favourite consistency: after a toggle made with the true flag, the flag
    for the shown quote is negated; moving to a quote with another text and
    back shows the same toggled value, and the other quote's flag is what it
    was before the toggle.
  */
  lemma FavoriteFollowsQuote(st: HomeState, t: Table, other: Quote)
    requires other.text != st.currentQuote.text
    ensures
      var t1 := ToggleShown(st, t, IsFavoriteShown(st, t));
      var away := st.(currentQuote := other);
      && IsFavoriteShown(st, t1) == !IsFavoriteShown(st, t)
      && IsFavoriteShown(away, t1) == IsFavoriteShown(away, t)
  {
  }
}

=== FILE: favorite_dao.dfy ===
/**
  The `favorite_quotes` table and its DAO. The table is a sequence of rows
  (its order carries no meaning) together with the autoincrement counter
  that hands out fresh primary keys. Text is not a key: two rows may hold
  the same text under different ids.
*/
module FavoriteDao {
  import opened Seqs

  datatype FavoriteQuote = FavoriteQuote(id: int, text: string, author: string)

  datatype Table = Table(rows: seq<FavoriteQuote>, nextId: int)

  /** A freshly created database: no rows, first generated id is 1. */
  const EmptyTable: Table := Table([], 1)

  predicate IdsDistinct(rows: seq<FavoriteQuote>) {
    forall i, j :: 0 <= i < j < |rows| ==> rows[i].id != rows[j].id
  }

  /** Primary keys are pairwise distinct and all below the next generated id. */
  predicate Valid(t: Table) {
    && t.nextId >= 1
    && IdsDistinct(t.rows)
    && (forall i :: 0 <= i < |t.rows| ==> t.rows[i].id < t.nextId)
  }

  /** Number of rows whose text is exactly `text`. */
  function CountText(rows: seq<FavoriteQuote>, text: string): nat
  {
    if |rows| == 0 then 0
    else (if rows[0].text == text then 1 else 0) + CountText(rows[1..], text)
  }

  lemma {:induction false} CountTextAppend(s: seq<FavoriteQuote>, t: seq<FavoriteQuote>, text: string)
    ensures CountText(s + t, text) == CountText(s, text) + CountText(t, text)
  {
    if |s| == 0 {
      assert s + t == t;
    } else {
      assert (s + t)[1..] == s[1..] + t;
      CountTextAppend(s[1..], t, text);
    }
  }

  /** `isFavorite(text)`: `SELECT EXISTS(... WHERE text = :text)`. */
  predicate IsFavorite(t: Table, text: string) {
    exists i :: 0 <= i < |t.rows| && t.rows[i].text == text
  }

  /** Membership is the same as a positive number of rows with that text. */
  lemma {:induction false} IsFavoriteIffCounted(rows: seq<FavoriteQuote>, text: string)
    ensures IsFavorite(Table(rows, 0), text) <==> CountText(rows, text) > 0
  {
    if |rows| > 0 {
      IsFavoriteIffCounted(rows[1..], text);
      if rows[0].text != text && IsFavorite(Table(rows, 0), text) {
        var i :| 0 <= i < |rows| && rows[i].text == text;
        assert rows[1..][i - 1].text == text;
      }
      if IsFavorite(Table(rows[1..], 0), text) {
        var i :| 0 <= i < |rows[1..]| && rows[1..][i].text == text;
        assert rows[i + 1].text == text;
      }
    }
  }

  /** Membership does not depend on the counter. */
  lemma IsFavoriteRows(t: Table, text: string)
    ensures IsFavorite(t, text) <==> CountText(t.rows, text) > 0
  {
    IsFavoriteIffCounted(t.rows, text);
    assert IsFavorite(t, text) <==> IsFavorite(Table(t.rows, 0), text) by {
      if IsFavorite(t, text) {
        var i :| 0 <= i < |t.rows| && t.rows[i].text == text;
        assert Table(t.rows, 0).rows[i].text == text;
      }
    }
  }

  /** `deleteByText(text)`: `DELETE ... WHERE text = :text`. */
  function DeleteByText(t: Table, text: string): (r: Table)
    ensures !IsFavorite(r, text)
    ensures forall row: FavoriteQuote :: row.text != text ==> (row in r.rows <==> row in t.rows)
    ensures forall row :: row in r.rows ==> row in t.rows
    ensures r.nextId == t.nextId
    ensures Valid(t) ==> Valid(r)
  {
    var rows := Filter(t.rows, (row: FavoriteQuote) => row.text != text);
    var r := Table(rows, t.nextId);
    assert Valid(t) ==> Valid(r) by {
      if Valid(t) {
        FilterDistinct(t.rows, (row: FavoriteQuote) => row.text != text);
        SubsetIdsValid(t, r);
      }
    }
    r
  }

  /** The delete removes exactly as many rows as carry the text: every duplicate goes. */
  lemma {:induction false} DeleteByTextCount(rows: seq<FavoriteQuote>, text: string)
    ensures |Filter(rows, (row: FavoriteQuote) => row.text != text)| == |rows| - CountText(rows, text)
  {
    if |rows| > 0 {
      DeleteByTextCount(rows[1..], text);
    }
  }

  /** Rows carried over from a valid table keep ids distinct, provided the rows are themselves distinct. */
  lemma SubsetIdsValid(t: Table, r: Table)
    requires Valid(t)
    requires r.nextId == t.nextId
    requires forall row :: row in r.rows ==> row in t.rows
    requires forall i, j :: 0 <= i < j < |r.rows| ==> r.rows[i] != r.rows[j]
    ensures Valid(r)
  {
    forall i, j | 0 <= i < j < |r.rows|
      ensures r.rows[i].id != r.rows[j].id
    {
      assert r.rows[i] in t.rows && r.rows[j] in t.rows;
      var a :| 0 <= a < |t.rows| && t.rows[a] == r.rows[i];
      var b :| 0 <= b < |t.rows| && t.rows[b] == r.rows[j];
      assert a != b;
    }
    forall i | 0 <= i < |r.rows|
      ensures r.rows[i].id < r.nextId
    {
      assert r.rows[i] in t.rows;
    }
  }

  /** The rows of `rows` except those whose primary key is `id`. */
  function RemoveId(rows: seq<FavoriteQuote>, id: int): seq<FavoriteQuote>
  {
    Filter(rows, (row: FavoriteQuote) => row.id != id)
  }

  /** With distinct keys, removing a key that is present removes exactly one row. */
  lemma {:induction false} RemoveIdLength(rows: seq<FavoriteQuote>, id: int, k: int)
    requires IdsDistinct(rows)
    requires 0 <= k < |rows| && rows[k].id == id
    ensures |RemoveId(rows, id)| == |rows| - 1
  {
    if k == 0 {
      FilterKeepsAll(rows[1..], (row: FavoriteQuote) => row.id != id);
    } else {
      RemoveIdLength(rows[1..], id, k - 1);
    }
  }

  /** Appends a row under the next generated key; nothing already stored changes. */
  function InsertFresh(t: Table, text: string, author: string): (r: Table)
    ensures |r.rows| == |t.rows| + 1
    ensures forall row :: row in t.rows ==> row in r.rows
    ensures FavoriteQuote(t.nextId, text, author) in r.rows
    ensures forall row :: row in r.rows ==> row in t.rows || row == FavoriteQuote(t.nextId, text, author)
    ensures r.nextId == t.nextId + 1
    ensures CountText(r.rows, text) == CountText(t.rows, text) + 1
    ensures forall x: string :: x != text ==> CountText(r.rows, x) == CountText(t.rows, x)
    ensures Valid(t) ==> Valid(r)
  {
    var row := FavoriteQuote(t.nextId, text, author);
    var r := Table(t.rows + [row], t.nextId + 1);
    assert r.rows[|t.rows|] == row;
    assert [row][1..] == [];
    CountTextAppend(t.rows, [row], text);
    assert forall x: string :: x != text ==> CountText(r.rows, x) == CountText(t.rows, x) by {
      forall x: string | x != text
        ensures CountText(r.rows, x) == CountText(t.rows, x)
      {
        CountTextAppend(t.rows, [row], x);
      }
    }
    r
  }

  /** Stores `e` under its own key, dropping any row that held that key. */
  function Replace(t: Table, e: FavoriteQuote): (r: Table)
    ensures e in r.rows
    ensures forall row :: row in r.rows && row.id == e.id ==> row == e
    ensures forall row :: row in t.rows && row.id != e.id ==> row in r.rows
    ensures forall row :: row in r.rows ==> row in t.rows || row == e
    ensures r.nextId >= t.nextId && r.nextId > e.id
    ensures Valid(t) ==> Valid(r)
  {
    var kept := RemoveId(t.rows, e.id);
    var r := Table(kept + [e], if e.id + 1 > t.nextId then e.id + 1 else t.nextId);
    assert r.rows[|kept|] == e;
    assert Valid(t) ==> Valid(r) by {
      if Valid(t) {
        FilterDistinct(t.rows, (row: FavoriteQuote) => row.id != e.id);
        ReplaceValid(t, e, kept, r);
      }
    }
    r
  }

  lemma ReplaceValid(t: Table, e: FavoriteQuote, kept: seq<FavoriteQuote>, r: Table)
    requires Valid(t)
    requires kept == RemoveId(t.rows, e.id)
    requires forall i, j :: 0 <= i < j < |kept| ==> kept[i] != kept[j]
    requires r == Table(kept + [e], if e.id + 1 > t.nextId then e.id + 1 else t.nextId)
    ensures Valid(r)
  {
    forall i, j | 0 <= i < j < |r.rows|
      ensures r.rows[i].id != r.rows[j].id
    {
      if j == |kept| {
        assert r.rows[i] in kept;
      } else {
        assert r.rows[i] == kept[i] && r.rows[j] == kept[j];
        assert kept[i] in t.rows && kept[j] in t.rows;
        var a :| 0 <= a < |t.rows| && t.rows[a] == kept[i];
        var b :| 0 <= b < |t.rows| && t.rows[b] == kept[j];
        assert a != b;
      }
    }
    forall i | 0 <= i < |r.rows|
      ensures r.rows[i].id < r.nextId
    {
      if i < |kept| {
        assert r.rows[i] == kept[i];
        assert kept[i] in t.rows;
      }
    }
  }

  /** With distinct keys, replacing a key that is present keeps the row count. */
  lemma ReplaceExistingKeepsSize(t: Table, e: FavoriteQuote, k: int)
    requires Valid(t)
    requires 0 <= k < |t.rows| && t.rows[k].id == e.id
    ensures |Replace(t, e).rows| == |t.rows|
  {
    RemoveIdLength(t.rows, e.id, k);
  }

  /**
    `insert(quote)` with `OnConflictStrategy.REPLACE`. An id of 0 means
    "not set": the row gets the next generated key. Any other id is used as
    given, and a row already holding that key is replaced.
  */
  function Insert(t: Table, e: FavoriteQuote): (r: Table)
    ensures IsFavorite(r, e.text)
    ensures Valid(t) ==> Valid(r)
    ensures forall row :: row in r.rows ==>
      row in t.rows || row == (if e.id == 0 then FavoriteQuote(t.nextId, e.text, e.author) else e)
    ensures e.id == 0 ==> r.nextId == t.nextId + 1
    ensures e.id == 0 ==>
      && FavoriteQuote(t.nextId, e.text, e.author) in r.rows
      && |r.rows| == |t.rows| + 1
      && (forall row :: row in t.rows ==> row in r.rows)
    ensures e.id != 0 ==>
      && e in r.rows
      && (forall row :: row in r.rows && row.id == e.id ==> row == e)
      && (forall row :: row in t.rows && row.id != e.id ==> row in r.rows)
  {
    var r := if e.id == 0 then InsertFresh(t, e.text, e.author) else Replace(t, e);
    var added := if e.id == 0 then FavoriteQuote(t.nextId, e.text, e.author) else e;
    assert added in r.rows;
    var k :| 0 <= k < |r.rows| && r.rows[k] == added;
    r
  }

  /** Ids strictly decrease along the sequence. */
  predicate SortedDesc(s: seq<FavoriteQuote>) {
    forall i, j :: 0 <= i < j < |s| ==> s[i].id > s[j].id
  }

  /** Prepending a row whose key exceeds every key of a descending sequence keeps it descending. */
  lemma SortedCons(x: FavoriteQuote, s: seq<FavoriteQuote>)
    requires SortedDesc(s)
    requires forall k :: 0 <= k < |s| ==> s[k].id < x.id
    ensures SortedDesc([x] + s)
  {
    var r := [x] + s;
    forall i, j | 0 <= i < j < |r|
      ensures r[i].id > r[j].id
    {
      if i > 0 {
        assert r[i] == s[i - 1] && r[j] == s[j - 1];
      } else {
        assert r[j] == s[j - 1];
      }
    }
  }

  /** Places `x` into an id-descending sequence. */
  function InsertDesc(x: FavoriteQuote, s: seq<FavoriteQuote>): (r: seq<FavoriteQuote>)
    requires SortedDesc(s)
    requires forall k :: 0 <= k < |s| ==> s[k].id != x.id
    ensures SortedDesc(r)
    ensures multiset(r) == multiset(s) + multiset{x}
  {
    if |s| == 0 then [x]
    else if x.id > s[0].id then
      SortedCons(x, s);
      [x] + s
    else
      var rest := InsertDesc(x, s[1..]);
      BelowHead(x, s, rest);
      SortedCons(s[0], rest);
      assert s == [s[0]] + s[1..];
      [s[0]] + rest
  }

  lemma BelowHead(x: FavoriteQuote, s: seq<FavoriteQuote>, rest: seq<FavoriteQuote>)
    requires |s| > 0 && SortedDesc(s) && x.id < s[0].id
    requires multiset(rest) == multiset(s[1..]) + multiset{x}
    ensures forall k :: 0 <= k < |rest| ==> rest[k].id < s[0].id
  {
    forall k | 0 <= k < |rest|
      ensures rest[k].id < s[0].id
    {
      assert rest[k] in multiset(rest);
      if rest[k] != x {
        assert rest[k] in multiset(s[1..]);
        var m :| 0 <= m < |s[1..]| && s[1..][m] == rest[k];
        assert s[m + 1] == rest[k];
      }
    }
  }

  /** Insertion sort by id, highest first. */
  function SortDesc(rows: seq<FavoriteQuote>): (r: seq<FavoriteQuote>)
    requires IdsDistinct(rows)
    ensures SortedDesc(r)
    ensures multiset(r) == multiset(rows)
  {
    if |rows| == 0 then []
    else
      var rest := SortDesc(rows[1..]);
      HeadIdFresh(rows, rest);
      assert rows == [rows[0]] + rows[1..];
      InsertDesc(rows[0], rest)
  }

  /** A permutation of the tail carries no row with the head's id. */
  lemma HeadIdFresh(rows: seq<FavoriteQuote>, rest: seq<FavoriteQuote>)
    requires |rows| > 0 && IdsDistinct(rows)
    requires multiset(rest) == multiset(rows[1..])
    ensures forall k :: 0 <= k < |rest| ==> rest[k].id != rows[0].id
  {
    forall k | 0 <= k < |rest|
      ensures rest[k].id != rows[0].id
    {
      assert rest[k] in multiset(rows[1..]);
      var m :| 0 <= m < |rows[1..]| && rows[1..][m] == rest[k];
      assert rows[m + 1] == rest[k];
    }
  }

  /** `getAllFavorites()`: `SELECT * ... ORDER BY id DESC`, every row exactly once, newest key first. */
  function GetAllFavorites(t: Table): (r: seq<FavoriteQuote>)
    requires Valid(t)
    ensures SortedDesc(r)
    ensures multiset(r) == multiset(t.rows)
    ensures |r| == |t.rows|
  {
    var r := SortDesc(t.rows);
    assert |r| == |multiset(r)| == |multiset(t.rows)| == |t.rows|;
    r
  }
}

=== FILE: favourite_items.dfy ===
/**
  The older favourites view-model (`mainui/FavouriteViewModel`) over
  `FavouriteItem` records: a UI state that loads a list and removes items
  by id, switching to `Empty` when nothing is left.
*/
module FavouriteItems {
  import opened Seqs

  datatype FavouriteItem = FavouriteItem(id: string, title: string, address: string, timestamp: int)

  datatype FavouriteUiState = Loading | Empty | Success(items: seq<FavouriteItem>) | Error(message: string)

  const InitialState: FavouriteUiState := Loading

  const LoadFailedText := "Failed to load favourites"

  /** The data source's answer: the items, or an exception. */
  datatype LoadOutcome = Loaded(items: seq<FavouriteItem>) | LoadThrew

  /** A `Success` state is never empty: an empty list is shown as `Empty`. */
  predicate WellFormed(s: FavouriteUiState) {
    s.Success? ==> |s.items| > 0
  }

  /** `loadFavourites()`: the states emitted, `Loading` first and the outcome last. */
  function LoadFavourites(o: LoadOutcome): (trace: seq<FavouriteUiState>)
    ensures |trace| == 2 && trace[0] == Loading
    ensures WellFormed(trace[1])
    ensures o.LoadThrew? <==> trace[1] == Error(LoadFailedText)
    ensures o.Loaded? ==> (trace[1] == Empty <==> |o.items| == 0)
    ensures o.Loaded? && |o.items| > 0 ==> trace[1] == Success(o.items)
  {
    match o
    case LoadThrew => [Loading, Error(LoadFailedText)]
    case Loaded(items) => [Loading, if |items| == 0 then Empty else Success(items)]
  }

  function WithoutId(items: seq<FavouriteItem>, id: string): seq<FavouriteItem>
  {
    Filter(items, (it: FavouriteItem) => it.id != id)
  }

  /** `removeFavourite(item)`: only a `Success` state changes; it loses every item with the same id. */
  function RemoveFavourite(s: FavouriteUiState, item: FavouriteItem): (r: FavouriteUiState)
    ensures !s.Success? ==> r == s
    ensures WellFormed(r)
    ensures s.Success? ==> (r.Empty? <==> forall k :: 0 <= k < |s.items| ==> s.items[k].id == item.id)
    ensures s.Success? ==> r.Empty? || r == Success(WithoutId(s.items, item.id))
    ensures s.Success? && r.Success? ==>
      forall x :: x in r.items <==> x in s.items && x.id != item.id
  {
    match s
    case Success(items) =>
      var kept := WithoutId(items, item.id);
      assert |kept| == 0 <==> forall k :: 0 <= k < |items| ==> items[k].id == item.id by {
        AllRemovedIffEmpty(items, item.id);
      }
      if |kept| == 0 then Empty else Success(kept)
    case _ => s
  }

  lemma {:induction false} AllRemovedIffEmpty(items: seq<FavouriteItem>, id: string)
    ensures |WithoutId(items, id)| == 0 <==> forall k :: 0 <= k < |items| ==> items[k].id == id
  {
    if |items| > 0 {
      AllRemovedIffEmpty(items[1..], id);
      assert forall k :: 1 <= k < |items| ==> items[k] == items[1..][k - 1];
    }
  }

  /** The removal keeps the remaining items in their original order: it commutes with splitting the list. */
  lemma RemoveKeepsOrder(a: seq<FavouriteItem>, b: seq<FavouriteItem>, id: string)
    ensures WithoutId(a + b, id) == WithoutId(a, id) + WithoutId(b, id)
  {
    FilterAppend(a, b, (it: FavouriteItem) => it.id != id);
  }

  /** Removing an id that no item has leaves the state exactly as it was. */
  lemma RemoveAbsentIsNoOp(s: FavouriteUiState, item: FavouriteItem)
    requires s.Success? && forall k :: 0 <= k < |s.items| ==> s.items[k].id != item.id
    requires WellFormed(s)
    ensures RemoveFavourite(s, item) == s
  {
    FilterKeepsAll(s.items, (it: FavouriteItem) => it.id != item.id);
  }

  /** Removing the same item twice is the same as removing it once. */
  lemma RemoveIdempotent(s: FavouriteUiState, item: FavouriteItem)
    ensures RemoveFavourite(RemoveFavourite(s, item), item) == RemoveFavourite(s, item)
  {
    if s.Success? {
      FilterIdempotent(s.items, (it: FavouriteItem) => it.id != item.id);
    }
  }

  /** The items the screen loads in place of a real data source, each stamped with the given clock reading. */
  function SampleItems(now: int): (items: seq<FavouriteItem>)
    ensures |items| == 3
    ensures forall k :: 0 <= k < |items| ==> items[k].timestamp == now
  {
    [ FavouriteItem("1", "Home", "123, Green Street, Bihar", now),
      FavouriteItem("2", "Office", "Invyu Tech Park, Sector 5", now),
      FavouriteItem("3", "Gym", "Gold's Gym, Main Road", now) ]
  }

  /** With the built-in sample list, loading always ends in `Success` with the three items. */
  lemma SampleLoadSucceeds(now: int)
    ensures LoadFavourites(Loaded(SampleItems(now)))[1] == Success(SampleItems(now))
  {
  }
}

=== FILE: favourites_screen.dfy ===
/**
  The favourites screen's view-model (`favouritescreen/FavouriteViewModel`):
  a list that mirrors the DAO listing, and removal by reusing the
  repository toggle with the status "is a favourite".
*/
module FavouritesScreen {
  import opened Quotes
  import opened FavoriteDao
  import opened QuoteRepository

  /** The exposed list before the database has emitted anything. */
  const InitialFavorites: seq<FavoriteQuote> := []

  /** Each emission of the exposed list: the table's rows, newest id first. */
  function Favorites(t: Table): (r: seq<FavoriteQuote>)
    requires Valid(t)
    ensures SortedDesc(r)
    ensures multiset(r) == multiset(t.rows)
  {
    GetAllFavorites(t)
  }

  /** `removeFavorite(favorite)`: a toggle with "currently a favourite", built from the row's text and author. */
  function RemoveFavorite(t: Table, f: FavoriteQuote): (r: Table)
    ensures r == ToggleFavorite(t, MakeQuote(f.text, f.author), true)
    ensures !IsFavorite(r, f.text)
    ensures forall row: FavoriteQuote :: row in r.rows <==> row in t.rows && row.text != f.text
    ensures |r.rows| == |t.rows| - CountText(t.rows, f.text)
    ensures r.nextId == t.nextId
    ensures Valid(t) ==> Valid(r)
  {
    var r := ToggleFavorite(t, MakeQuote(f.text, f.author), true);
    DeleteByTextCount(t.rows, f.text);
    r
  }

  /**
    Removing one row of a duplicated text removes the other copies too,
    whatever their ids and authors.
  */
  lemma RemoveTakesDuplicates(t: Table, f: FavoriteQuote, g: FavoriteQuote)
    requires f in t.rows && g in t.rows && g.text == f.text && g.id != f.id
    ensures f !in RemoveFavorite(t, f).rows && g !in RemoveFavorite(t, f).rows
    ensures |RemoveFavorite(t, f).rows| <= |t.rows| - 2
  {
    var i :| 0 <= i < |t.rows| && t.rows[i] == f;
    var j :| 0 <= j < |t.rows| && t.rows[j] == g;
    CountAtLeastTwo(t.rows, f.text, i, j);
  }

  lemma {:induction false} CountAtLeastTwo(rows: seq<FavoriteQuote>, text: string, i: int, j: int)
    requires 0 <= i < |rows| && 0 <= j < |rows| && i != j
    requires rows[i].text == text && rows[j].text == text
    ensures CountText(rows, text) >= 2
  {
    if i == 0 || j == 0 {
      var k := if i == 0 then j else i;
      IsFavoriteIffCounted(rows[1..], text);
      assert rows[1..][k - 1].text == text;
    } else {
      CountAtLeastTwo(rows[1..], text, i - 1, j - 1);
    }
  }

  /** Removing a favourite and listing again never shows a row the table did not have, nor one with the removed text. */
  lemma ListingAfterRemove(t: Table, f: FavoriteQuote)
    requires Valid(t)
    ensures
      var after := Favorites(RemoveFavorite(t, f));
      forall row :: row in after ==> row in t.rows && row.text != f.text
  {
    var r := RemoveFavorite(t, f);
    var after := Favorites(r);
    forall row | row in after
      ensures row in t.rows && row.text != f.text
    {
      assert row in multiset(after);
      assert row in multiset(r.rows);
    }
  }
}

=== FILE: login_form.dfy ===
/**
  `LoginViewModel`: field validation before sign-in, and the
  password-reset request with its 25-second cooldown. Each action returns
  the states it emits in order, so the trace `Loading` then result is
  visible; the provider's answer and the clock are parameters, and the
  platform email pattern is the predicate `isEmail`.
*/
module LoginForm {
  import opened Wrappers
  import opened Text
  import Auth

  datatype LoginState = Idle | Loading | Success | PasswordResetSent | Error(message: string)

  datatype LoginVm = LoginVm(state: LoginState, email: string, password: string, lastResetRequestTime: int)

  const InitialLogin: LoginVm := LoginVm(Idle, "", "", 0)

  const ResetCooldownMs := 25_000

  const FillAllFields := "Please fill in all fields"
  const EnterEmail := "Please enter your email"
  const InvalidEmail := "Please enter a valid email address"

  /**
    The view-model after an action, the states it emitted (the last one is
    the final state), and whether the identity provider was called.
  */
  datatype LoginStep = LoginStep(vm: LoginVm, emitted: seq<LoginState>, called: bool)

  predicate Ends(s: LoginStep) {
    |s.emitted| > 0 && s.vm.state == s.emitted[|s.emitted| - 1]
  }

  function UpdateEmail(vm: LoginVm, e: string): (r: LoginVm)
    ensures r.email == e && r == vm.(email := e)
  {
    vm.(email := e)
  }

  function UpdatePassword(vm: LoginVm, p: string): (r: LoginVm)
    ensures r.password == p && r == vm.(password := p)
  {
    vm.(password := p)
  }

  /** `login()`: both fields must be non-blank; then `Loading`, then the sign-in result. */
  function Login(vm: LoginVm, o: Auth.ProviderOutcome): (r: LoginStep)
    ensures Ends(r)
    ensures r.called <==> !IsBlank(vm.email) && !IsBlank(vm.password)
    ensures !r.called ==> r.emitted == [Error(FillAllFields)]
    ensures r.called ==> |r.emitted| == 2 && r.emitted[0] == Loading
    ensures r.called ==> (r.vm.state == Success <==> o.Completed?)
    ensures r.called && r.vm.state.Error? ==> !IsBlank(r.vm.state.message)
    ensures r.called && o.Threw? ==> r.vm.state == Error(Auth.SignIn(o).message)
    ensures r.called ==> r.emitted[1] == r.vm.state
    ensures r.vm == vm.(state := r.vm.state)
  {
    if IsBlank(vm.email) || IsBlank(vm.password) then
      LoginStep(vm.(state := Error(FillAllFields)), [Error(FillAllFields)], false)
    else
      var final := match Auth.SignIn(o) case Success => Success case Error(m) => Error(m);
      LoginStep(vm.(state := final), [Loading, final], true)
  }

  /** Whole seconds left in the cooldown, truncated; the dividend is positive whenever it is used. */
  function RemainingSeconds(elapsed: int): int {
    (ResetCooldownMs - elapsed) / 1000
  }

  function WaitMessage(seconds: nat): string {
    "Please wait " + NatToString(seconds) + " seconds before requesting another reset"
  }

  /**
    `resetPasswordWithEmail(email)`: blank, then format, then cooldown are
    checked in that order, and only then is the provider called. An
    accepted request stamps `now`; a provider error whose message does not
    mention "wait" clears the stamp again so a retry is not held back.
  */
  function ResetPasswordWithEmail(vm: LoginVm, email: string, isEmail: string -> bool, now: int, o: Auth.ProviderOutcome): (r: LoginStep)
    ensures Ends(r)
    ensures r.called <==> !IsBlank(email) && isEmail(email) && now - vm.lastResetRequestTime >= ResetCooldownMs
    ensures IsBlank(email) ==> r.emitted == [Error(EnterEmail)]
    ensures !IsBlank(email) && !isEmail(email) ==> r.emitted == [Error(InvalidEmail)]
    ensures !IsBlank(email) && isEmail(email) && now - vm.lastResetRequestTime < ResetCooldownMs ==>
      r.emitted == [Error(WaitMessage(RemainingSeconds(now - vm.lastResetRequestTime)))]
    ensures !r.called ==> r.vm.lastResetRequestTime == vm.lastResetRequestTime
    ensures r.called ==> |r.emitted| == 2 && r.emitted[0] == Loading
    ensures r.called ==> (r.vm.state == PasswordResetSent <==> o.Completed?)
    ensures r.called && o.Completed? ==> r.vm.lastResetRequestTime == now
    ensures r.called ==> r.emitted[1] == r.vm.state
    ensures r.called && o.Threw? ==> r.vm.state == Error(Auth.ResetPassword(o).message)
    ensures r.called && o.Threw? ==>
      && r.vm.state.Error?
      && r.vm.lastResetRequestTime == (if ContainsIgnoreCase(r.vm.state.message, "wait") then now else 0)
    ensures (r.vm.email, r.vm.password) == (vm.email, vm.password)
  {
    if IsBlank(email) then
      LoginStep(vm.(state := Error(EnterEmail)), [Error(EnterEmail)], false)
    else if !isEmail(email) then
      LoginStep(vm.(state := Error(InvalidEmail)), [Error(InvalidEmail)], false)
    else
      var elapsed := now - vm.lastResetRequestTime;
      if elapsed < ResetCooldownMs then
        var e := Error(WaitMessage(RemainingSeconds(elapsed)));
        LoginStep(vm.(state := e), [e], false)
      else
        match Auth.ResetPassword(o)
        case Success =>
          LoginStep(vm.(state := PasswordResetSent, lastResetRequestTime := now), [Loading, PasswordResetSent], true)
        case Error(m) =>
          var stamp := if ContainsIgnoreCase(m, "wait") then now else 0;
          LoginStep(vm.(state := Error(m), lastResetRequestTime := stamp), [Loading, Error(m)], true)
  }

  /** `resetPassword()`: the older entry point, checking the stored email before delegating. */
  function ResetPasswordStored(vm: LoginVm, isEmail: string -> bool, now: int, o: Auth.ProviderOutcome): (r: LoginStep)
    ensures Ends(r)
    ensures IsBlank(vm.email) ==> r.emitted == [Error(EnterEmail)] && !r.called
  {
    if IsBlank(vm.email) then
      LoginStep(vm.(state := Error(EnterEmail)), [Error(EnterEmail)], false)
    else ResetPasswordWithEmail(vm, vm.email, isEmail, now, o)
  }

  function ResetState(vm: LoginVm): (r: LoginVm)
    ensures r.state == Idle
    ensures (r.email, r.password, r.lastResetRequestTime) == (vm.email, vm.password, vm.lastResetRequestTime)
  {
    vm.(state := Idle)
  }

  /** The older entry point's own blank check duplicates the delegate's: it behaves exactly like passing the stored email. */
  lemma ResetPasswordDelegates(vm: LoginVm, isEmail: string -> bool, now: int, o: Auth.ProviderOutcome)
    ensures ResetPasswordStored(vm, isEmail, now, o) == ResetPasswordWithEmail(vm, vm.email, isEmail, now, o)
  {
  }

  /** The countdown shown while the cooldown holds is between 0 and 25 seconds. */
  lemma RemainingSecondsRange(elapsed: int)
    requires 0 <= elapsed < ResetCooldownMs
    ensures 0 <= RemainingSeconds(elapsed) <= 25
    ensures RemainingSeconds(elapsed) * 1000 <= ResetCooldownMs - elapsed < (RemainingSeconds(elapsed) + 1) * 1000
  {
  }

  /** The countdown message carries the number of seconds, which reads back from its digits. */
  lemma {:induction false} WaitMessageCarriesSeconds(seconds: nat)
    ensures
      var m := WaitMessage(seconds);
      var d := |NatToString(seconds)|;
      && IsPrefix("Please wait ", m)
      && ParseDigits(m[12..12 + d]) == seconds
  {
    var m := WaitMessage(seconds);
    var d := |NatToString(seconds)|;
    assert m[12..12 + d] == NatToString(seconds);
    ParseNatToString(seconds);
  }

  /**
    After an accepted request that succeeded, a second request less than
    25 seconds later is refused without calling the provider, whatever
    the email.
  */
  lemma CooldownBlocksRetry(vm: LoginVm, email: string, isEmail: string -> bool, t1: int, o1: Auth.ProviderOutcome,
                            email2: string, t2: int, o2: Auth.ProviderOutcome)
    requires ResetPasswordWithEmail(vm, email, isEmail, t1, o1).called && o1.Completed?
    requires t1 <= t2 < t1 + ResetCooldownMs
    ensures !ResetPasswordWithEmail(ResetPasswordWithEmail(vm, email, isEmail, t1, o1).vm, email2, isEmail, t2, o2).called
  {
  }

  /**
    A provider failure whose reported message does not mention "wait"
    clears the stamp, so the next well-formed request goes through at any
    clock reading past the cooldown length.
  */
  lemma FailureAllowsRetry(vm: LoginVm, email: string, isEmail: string -> bool, t1: int, m: Option<string>,
                           t2: int, o2: Auth.ProviderOutcome)
    requires ResetPasswordWithEmail(vm, email, isEmail, t1, Auth.Threw(m)).called
    requires !ContainsIgnoreCase(m.GetOr(Auth.ResetFailed), "wait")
    requires t2 >= ResetCooldownMs
    ensures ResetPasswordWithEmail(ResetPasswordWithEmail(vm, email, isEmail, t1, Auth.Threw(m)).vm, email, isEmail, t2, o2).called
  {
    var r := ResetPasswordWithEmail(vm, email, isEmail, t1, Auth.Threw(m));
    assert r.vm.state == Error(m.GetOr(Auth.ResetFailed));
  }

  /** A provider message asking the user to wait keeps the stamp, so the cooldown still applies. */
  lemma WaitMessageKeepsCooldown(vm: LoginVm, email: string, isEmail: string -> bool, t1: int, m: string,
                                 t2: int, o2: Auth.ProviderOutcome)
    requires ResetPasswordWithEmail(vm, email, isEmail, t1, Auth.Threw(Some(m))).called
    requires ContainsIgnoreCase(m, "wait")
    requires t1 <= t2 < t1 + ResetCooldownMs
    ensures !ResetPasswordWithEmail(ResetPasswordWithEmail(vm, email, isEmail, t1, Auth.Threw(Some(m))).vm, email, isEmail, t2, o2).called
  {
  }
}

=== FILE: new_password_form.dfy ===
/**
  The new-password screen's submit button: a three-step validation
  (`when` branches, first match wins), then the password update, and the
  two requirement indicators shown under the fields.
*/
module NewPasswordForm {
  import opened Wrappers
  import opened Text
  import Auth

  const FillAllFields := "Please fill in all fields"
  const Mismatch := "Passwords do not match"
  const TooShort := "Password must be at least 6 characters"
  const UpdatedText := "Password updated successfully!"
  const UpdateFailedText := "Failed to update password"
  const MinLength := 6

  /** "Be at least 6 characters long". */
  predicate LongEnough(password: string) {
    |password| >= MinLength
  }

  /** "Match in both fields": checked with `isNotEmpty`, not `isBlank`. */
  predicate Matching(password: string, confirm: string) {
    |password| > 0 && password == confirm
  }

  /** The first validation message that applies, or None when the input is accepted. */
  function Validate(password: string, confirm: string): (r: Option<string>)
    ensures r == Some(FillAllFields) <==> IsBlank(password) || IsBlank(confirm)
    ensures r == Some(Mismatch) <==> !IsBlank(password) && !IsBlank(confirm) && password != confirm
    ensures r == Some(TooShort) <==> !IsBlank(password) && !IsBlank(confirm) && password == confirm && |password| < MinLength
    ensures r.None? <==> !IsBlank(password) && password == confirm && |password| >= MinLength
  {
    if IsBlank(password) || IsBlank(confirm) then Some(FillAllFields)
    else if password != confirm then Some(Mismatch)
    else if |password| < MinLength then Some(TooShort)
    else None
  }

  /** The screen's local state. */
  datatype Screen = Screen(
    password: string, confirm: string, isLoading: bool,
    errorMessage: Option<string>, successMessage: Option<string>, navigatedAway: bool)

  /** The state after a tap, the loading flag's values in order, and the password sent to the provider, if any. */
  datatype Submission = Submission(screen: Screen, loadingTrace: seq<bool>, sent: Option<string>)

  /** The button's click handler, with the provider's answer as a parameter. */
  function Submit(s: Screen, o: Auth.ProviderOutcome): (r: Submission)
    ensures r.sent.Some? <==> Validate(s.password, s.confirm).None?
    ensures r.sent.Some? ==> r.sent.value == s.password
    ensures r.sent.None? ==> r.screen == s.(errorMessage := Validate(s.password, s.confirm)) && r.loadingTrace == []
    ensures r.sent.Some? ==> r.loadingTrace == [true, false] && !r.screen.isLoading
    ensures r.sent.Some? && o.Completed? ==>
      r.screen.successMessage == Some(UpdatedText) && r.screen.navigatedAway && r.screen.errorMessage.None?
    ensures r.sent.Some? && o.Threw? ==>
      && r.screen.errorMessage == Some("Error: " + o.message.GetOr(UpdateFailedText))
      && r.screen.navigatedAway == s.navigatedAway && r.screen.successMessage == s.successMessage
    ensures (r.screen.password, r.screen.confirm) == (s.password, s.confirm)
  {
    match Validate(s.password, s.confirm)
    case Some(msg) => Submission(s.(errorMessage := Some(msg)), [], None)
    case None =>
      var cleared := s.(isLoading := true, errorMessage := None);
      var done := match o
        case Completed => cleared.(successMessage := Some(UpdatedText), navigatedAway := true)
        case Threw(m) => cleared.(errorMessage := Some("Error: " + m.GetOr(UpdateFailedText)));
      Submission(done.(isLoading := false), [true, false], Some(s.password))
  }

  /** Whatever the input passes validation also lights both requirement indicators. */
  lemma AcceptedMeetsRequirements(password: string, confirm: string)
    requires Validate(password, confirm).None?
    ensures LongEnough(password) && Matching(password, confirm)
  {
  }

  /**
    The converse fails: a password of six spaces typed twice lights both
    indicators, yet the blank check rejects it.
  */
  lemma IndicatorsDoNotImplyAccepted()
    ensures LongEnough("      ") && Matching("      ", "      ")
    ensures Validate("      ", "      ") == Some(FillAllFields)
  {
    assert IsBlank("      ");
  }

  /** Apart from blank input, the indicators and the validation agree exactly. */
  lemma IndicatorsAgreeOnNonBlank(password: string, confirm: string)
    requires !IsBlank(password) && !IsBlank(confirm)
    ensures Validate(password, confirm).None? <==> LongEnough(password) && Matching(password, confirm)
  {
  }
}

=== FILE: notification_receiver.dfy ===
/**
  `NotificationReceiver.onReceive`: re-arm tomorrow's alarm, pick the quote
  (today's stored one, a freshly fetched one, the stale stored one, or a
  fixed fallback), then post the notification. The receiver calls the API
  directly, so a failed call is seen here as a failure, not as the
  repository's offline quote.
*/
module NotificationReceiver {
  import opened Wrappers
  import opened Quotes
  import opened Preferences
  import opened NotificationScheduler

  /** Used only when the API call throws and nothing is stored. */
  const ReceiverFallback: Quote := MakeQuote("Start your day with positivity.", "QuoteVault")

  const NotificationTitle := "Quote of the Day"

  datatype Notification = Notification(title: string, contentText: string, bigText: string)

  /** `showNotification(text, author)`: the quoted text, and in the expanded style the author on a second line. */
  function ComposeNotification(text: string, author: string): (n: Notification)
    ensures n.title == NotificationTitle
    ensures |n.bigText| == |text| + |author| + 5
    ensures n.bigText[..|text| + 2] == n.contentText
    ensures n.bigText[|text| + 2..|text| + 5] == "\n- " && n.bigText[|text| + 5..] == author
    ensures n.contentText[0] == '"' && n.contentText[1..|text| + 1] == text && n.contentText[|text| + 1] == '"'
  {
    var content := "\"" + text + "\"";
    Notification(NotificationTitle, content, content + "\n- " + author)
  }

  /**
    The quote the receiver settles on (None when the `!!` would throw), the
    store afterwards, and whether the API was called.
  */
  datatype Selection = Selection(quote: Option<Quote>, prefs: Store, fetched: bool)

  /** Quote selection in `onReceive`. */
  function SelectQuote(prefs: Store, today: string, api: ApiOutcome): (r: Selection)
    ensures r.fetched <==> !IsQuoteFromToday(prefs, today)
    ensures !r.fetched ==> r.quote == GetDailyQuote(prefs) && r.prefs == prefs
    ensures r.fetched && api.Fetched? && |api.quotes| > 0 ==>
      && r.quote == Some(api.quotes[0])
      && GetDailyQuote(r.prefs) == Some(MakeQuote(api.quotes[0].text, api.quotes[0].author))
      && IsQuoteFromToday(r.prefs, today)
    ensures r.fetched && api.Fetched? && |api.quotes| == 0 ==> r.quote == GetDailyQuote(prefs) && r.prefs == prefs
    ensures r.fetched && api.Failed? ==>
      && r.prefs == prefs
      && r.quote == Some(if GetDailyQuote(prefs).Some? then GetDailyQuote(prefs).value else ReceiverFallback)
    ensures NotificationSettingsOf(r.prefs) == NotificationSettingsOf(prefs)
  {
    var stored := GetDailyQuote(prefs);
    if IsQuoteFromToday(prefs, today) then Selection(stored, prefs, false)
    else
      match api
      case Fetched(quotes) =>
        if |quotes| > 0 then Selection(Some(quotes[0]), SaveDailyQuote(prefs, quotes[0], today), true)
        else Selection(stored, prefs, true)
      case Failed =>
        Selection(Some(stored.GetOr(ReceiverFallback)), prefs, true)
  }

  datatype ReceiveResult = ReceiveResult(schedule: ScheduleResult, prefs: Store, fetched: bool, shown: Option<Notification>)

  /**
    `onReceive()`: scheduling reads the store as it was on arrival, before
    any quote is chosen; `shown` is None when no quote is available and the
    `!!` dereference throws.
  */
  function OnReceive(prefs: Store, today: string, api: ApiOutcome, p: Platform, c: Clock, a: Alarms): (r: ReceiveResult)
    ensures r.schedule == ScheduleDailyNotification(prefs, p, c, a)
    ensures r.shown.None? <==> SelectQuote(prefs, today, api).quote.None?
    ensures r.shown.Some? ==>
      var q := SelectQuote(prefs, today, api).quote.value;
      r.shown.value == ComposeNotification(q.text, q.author)
  {
    var schedule := ScheduleDailyNotification(prefs, p, c, a);
    var sel := SelectQuote(prefs, today, api);
    match sel.quote
    case Some(q) => ReceiveResult(schedule, sel.prefs, sel.fetched, Some(ComposeNotification(q.text, q.author)))
    case None => ReceiveResult(schedule, sel.prefs, sel.fetched, None)
  }

  /**
    Scheduling first or last makes no difference: choosing the quote never
    touches the notification settings the scheduler reads.
  */
  lemma ScheduleOrderIrrelevant(prefs: Store, today: string, api: ApiOutcome, p: Platform, c: Clock, a: Alarms)
    ensures ScheduleDailyNotification(SelectQuote(prefs, today, api).prefs, p, c, a) == ScheduleDailyNotification(prefs, p, c, a)
  {
  }

  /** A failed fetch with nothing stored posts the fallback quote. */
  lemma FailedFetchNothingStored(prefs: Store, today: string, p: Platform, c: Clock, a: Alarms)
    requires !IsQuoteFromToday(prefs, today) && GetDailyQuote(prefs).None?
    ensures OnReceive(prefs, today, Failed, p, c, a).shown == Some(ComposeNotification(ReceiverFallback.text, ReceiverFallback.author))
  {
  }

  /** A failed fetch with a stale stored quote posts the stale quote and saves nothing. */
  lemma FailedFetchStaleStored(prefs: Store, today: string, p: Platform, c: Clock, a: Alarms)
    requires !IsQuoteFromToday(prefs, today) && GetDailyQuote(prefs).Some?
    ensures
      var q := GetDailyQuote(prefs).value;
      var r := OnReceive(prefs, today, Failed, p, c, a);
      r.shown == Some(ComposeNotification(q.text, q.author)) && r.prefs == prefs
  {
  }

  /** An empty batch with nothing stored leaves no quote: the dereference throws and nothing is posted. */
  lemma EmptyFetchNothingStoredPostsNothing(prefs: Store, today: string, p: Platform, c: Clock, a: Alarms)
    requires !IsQuoteFromToday(prefs, today) && GetDailyQuote(prefs).None?
    ensures OnReceive(prefs, today, Fetched([]), p, c, a).shown.None?
  {
  }

  /**
    The receiver as its fallback comment intends it: whenever no quote is
    available, including an empty batch with nothing stored, the fixed
    fallback quote is posted instead of the dereference failing.
  */
  function OnReceiveWithFallback(prefs: Store, today: string, api: ApiOutcome, p: Platform, c: Clock, a: Alarms): (r: ReceiveResult)
    ensures r.shown.Some?
    ensures r.schedule == ScheduleDailyNotification(prefs, p, c, a)
    ensures OnReceive(prefs, today, api, p, c, a).shown.Some? ==> r == OnReceive(prefs, today, api, p, c, a)
    ensures OnReceive(prefs, today, api, p, c, a).shown.None? ==>
      r.shown == Some(ComposeNotification(ReceiverFallback.text, ReceiverFallback.author))
  {
    var r := OnReceive(prefs, today, api, p, c, a);
    if r.shown.Some? then r
    else r.(shown := Some(ComposeNotification(ReceiverFallback.text, ReceiverFallback.author)))
  }

  /** With the fallback applied, an empty batch and an empty store post the fallback quote. */
  lemma EmptyFetchNothingStoredPostsFallback(prefs: Store, today: string, p: Platform, c: Clock, a: Alarms)
    requires !IsQuoteFromToday(prefs, today) && GetDailyQuote(prefs).None?
    ensures OnReceiveWithFallback(prefs, today, Fetched([]), p, c, a).shown
      == Some(ComposeNotification(ReceiverFallback.text, ReceiverFallback.author))
  {
  }
}

=== FILE: notification_scheduler.dfy ===
/**
  `NotificationScheduler`: arms one exact alarm for the configured time,
  today if that instant is still ahead, otherwise tomorrow. Time is in
  epoch milliseconds and every day is 86 400 000 ms long; the start of the
  current day is passed in with the clock reading.
*/
module NotificationScheduler {
  import opened Wrappers
  import opened Preferences

  const DayMs := 86_400_000
  const HourMs := 3_600_000
  const MinuteMs := 60_000

  /** First API level that requires the exact-alarm permission (Android 12, `VERSION_CODES.S`). */
  const ApiS := 31

  /** What the device reports: its API level, the exact-alarm permission, and whether the alarm call succeeds. */
  datatype Platform = Platform(sdkInt: int, canScheduleExactAlarms: bool, alarmCallSucceeds: bool)

  /** A clock reading and the instant the current local day began. */
  datatype Clock = Clock(now: int, startOfDay: int)

  /** The app's single broadcast pending intent and the alarm armed with it, if any. */
  datatype Alarms = Alarms(pendingIntent: bool, trigger: Option<int>)

  const NoAlarms: Alarms := Alarms(false, None)

  /** An armed alarm always has its pending intent. */
  predicate AlarmsValid(a: Alarms) {
    a.trigger.Some? ==> a.pendingIntent
  }

  predicate ValidTime(hour: int, minute: int) {
    0 <= hour < 24 && 0 <= minute < 60
  }

  predicate WithinToday(c: Clock) {
    c.startOfDay <= c.now < c.startOfDay + DayMs
  }

  /**
    The trigger instant: the configured hour and minute of the current day
    with seconds and milliseconds zero, moved one day on if it is not after
    `now`.
  */
  function NextTrigger(hour: int, minute: int, c: Clock): (t: int)
    ensures (t - c.startOfDay - hour * HourMs - minute * MinuteMs) in {0, DayMs}
    ensures (t - c.startOfDay) % MinuteMs == 0
    ensures t == c.startOfDay + hour * HourMs + minute * MinuteMs + DayMs ==> c.startOfDay + hour * HourMs + minute * MinuteMs <= c.now
    ensures WithinToday(c) && ValidTime(hour, minute) ==> c.now < t <= c.now + DayMs
  {
    var candidate := c.startOfDay + hour * HourMs + minute * MinuteMs;
    assert candidate - c.startOfDay == (hour * 60 + minute) * MinuteMs;
    assert candidate + DayMs - c.startOfDay == (hour * 60 + minute + 1440) * MinuteMs;
    if candidate <= c.now then candidate + DayMs else candidate
  }

  /** `cancelNotification()`: only an existing pending intent is cancelled, along with its alarm. */
  function CancelNotification(a: Alarms): (r: Alarms)
    ensures r.trigger.None? || (!a.pendingIntent && r == a)
    ensures AlarmsValid(a) ==> r == NoAlarms
    ensures !a.pendingIntent ==> r == a
  {
    if a.pendingIntent then NoAlarms else a
  }

  datatype ScheduleOutcome =
    | CancelledDisabled
    | PermissionMissing
    | Armed(trigger: int)
    | AlarmCallFailed

  datatype ScheduleResult = ScheduleResult(outcome: ScheduleOutcome, alarms: Alarms)

  /** `scheduleDailyNotification()`. */
  function ScheduleDailyNotification(prefs: Store, p: Platform, c: Clock, a: Alarms): (r: ScheduleResult)
    ensures !AreNotificationsEnabled(prefs) <==> r.outcome.CancelledDisabled?
    ensures r.outcome.CancelledDisabled? ==> r.alarms == CancelNotification(a)
    ensures r.outcome.PermissionMissing? <==> AreNotificationsEnabled(prefs) && p.sdkInt >= ApiS && !p.canScheduleExactAlarms
    ensures r.outcome.PermissionMissing? ==> r.alarms == a
    ensures r.outcome.Armed? ==>
      var (hour, minute) := GetNotificationTime(prefs);
      && r.alarms == Alarms(true, Some(r.outcome.trigger))
      && (WithinToday(c) && ValidTime(hour, minute) ==> c.now < r.outcome.trigger <= c.now + DayMs)
    ensures r.outcome.Armed? ==>
      r.outcome.trigger == NextTrigger(GetNotificationTime(prefs).0, GetNotificationTime(prefs).1, c)
    ensures AreNotificationsEnabled(prefs) && !r.outcome.PermissionMissing? ==>
      (r.outcome.Armed? <==> p.alarmCallSucceeds)
    ensures r.outcome.AlarmCallFailed? ==> r.alarms == a.(pendingIntent := true)
    ensures AlarmsValid(a) ==> AlarmsValid(r.alarms)
  {
    if !AreNotificationsEnabled(prefs) then
      ScheduleResult(CancelledDisabled, CancelNotification(a))
    else if p.sdkInt >= ApiS && !p.canScheduleExactAlarms then
      ScheduleResult(PermissionMissing, a)
    else
      var (hour, minute) := GetNotificationTime(prefs);
      var t := NextTrigger(hour, minute, c);
      if p.alarmCallSucceeds then ScheduleResult(Armed(t), Alarms(true, Some(t)))
      else ScheduleResult(AlarmCallFailed, a.(pendingIntent := true))
  }

  /** Below API 31 the permission is never consulted. */
  lemma OldDevicesNeedNoPermission(prefs: Store, p: Platform, c: Clock, a: Alarms)
    requires AreNotificationsEnabled(prefs) && p.sdkInt < ApiS && p.alarmCallSucceeds
    ensures ScheduleDailyNotification(prefs, p, c, a).outcome.Armed?
  {
  }

  /** Cancelling twice is cancelling once. */
  lemma CancelIdempotent(a: Alarms)
    ensures CancelNotification(CancelNotification(a)) == CancelNotification(a)
  {
  }
}

=== FILE: notification_settings.dfy ===
/**
  `PreferencesViewModel`'s notification part: the on/off switch and the
  time picker, each writing the store and then arming or cancelling the
  alarm through the scheduler.
*/
module NotificationSettings {
  import opened Preferences
  import opened NotificationScheduler

  datatype SettingsState = SettingsState(notificationsEnabled: bool, hour: int, minute: int)

  /** The flows' initial values, before `loadSettings` runs. */
  const InitialSettings: SettingsState := SettingsState(false, 8, 0)

  /** The view-model shows exactly what the store holds. */
  predicate InSync(s: SettingsState, prefs: Store) {
    s.notificationsEnabled == AreNotificationsEnabled(prefs) && (s.hour, s.minute) == GetNotificationTime(prefs)
  }

  /** `loadSettings()`: copy the enabled flag and the time from the store. */
  function LoadSettings(prefs: Store): (s: SettingsState)
    ensures InSync(s, prefs)
  {
    var (hour, minute) := GetNotificationTime(prefs);
    SettingsState(AreNotificationsEnabled(prefs), hour, minute)
  }

  datatype Effect = Scheduled(result: ScheduleResult) | Cancelled | NoEffect

  datatype Step = Step(state: SettingsState, prefs: Store, alarms: Alarms, effect: Effect)

  /** `toggleNotifications(enabled)`. */
  function ToggleNotifications(s: SettingsState, prefs: Store, a: Alarms, p: Platform, c: Clock, enabled: bool): (r: Step)
    ensures r.state.notificationsEnabled == enabled && AreNotificationsEnabled(r.prefs) == enabled
    ensures (r.state.hour, r.state.minute) == (s.hour, s.minute)
    ensures GetNotificationTime(r.prefs) == GetNotificationTime(prefs)
    ensures DailyQuoteOf(r.prefs) == DailyQuoteOf(prefs)
    ensures enabled ==> r.effect.Scheduled? && !r.effect.result.outcome.CancelledDisabled?
    ensures enabled ==> r.effect == Scheduled(ScheduleDailyNotification(r.prefs, p, c, a)) && r.alarms == r.effect.result.alarms
    ensures !enabled ==> r.effect == Cancelled && r.alarms == CancelNotification(a)
    ensures InSync(s, prefs) ==> InSync(r.state, r.prefs)
  {
    var prefs' := SetNotificationsEnabled(prefs, enabled);
    var s' := s.(notificationsEnabled := enabled);
    if enabled then
      var res := ScheduleDailyNotification(prefs', p, c, a);
      Step(s', prefs', res.alarms, Scheduled(res))
    else
      Step(s', prefs', CancelNotification(a), Cancelled)
  }

  /** `updateTime(hour, minute)`: store the time and re-arm only when the view-model says notifications are on. */
  function UpdateTime(s: SettingsState, prefs: Store, a: Alarms, p: Platform, c: Clock, hour: int, minute: int): (r: Step)
    ensures (r.state.hour, r.state.minute) == (hour, minute) && GetNotificationTime(r.prefs) == (hour, minute)
    ensures r.state.notificationsEnabled == s.notificationsEnabled
    ensures AreNotificationsEnabled(r.prefs) == AreNotificationsEnabled(prefs)
    ensures r.effect.Scheduled? <==> s.notificationsEnabled
    ensures r.effect != Cancelled
    ensures !s.notificationsEnabled ==> r.alarms == a
    ensures DailyQuoteOf(r.prefs) == DailyQuoteOf(prefs)
    ensures s.notificationsEnabled ==>
      r.effect == Scheduled(ScheduleDailyNotification(r.prefs, p, c, a)) && r.alarms == r.effect.result.alarms
    ensures InSync(s, prefs) ==> InSync(r.state, r.prefs)
  {
    var prefs' := SetNotificationTime(prefs, hour, minute);
    var s' := s.(hour := hour, minute := minute);
    if s.notificationsEnabled then
      var res := ScheduleDailyNotification(prefs', p, c, a);
      Step(s', prefs', res.alarms, Scheduled(res))
    else
      Step(s', prefs', a, NoEffect)
  }

  /**
    While the view-model and the store agree, a time change never reaches
    the scheduler's "disabled, so cancel" branch.
  */
  lemma UpdateTimeNeverCancels(s: SettingsState, prefs: Store, a: Alarms, p: Platform, c: Clock, hour: int, minute: int)
    requires InSync(s, prefs)
    ensures
      var r := UpdateTime(s, prefs, a, p, c, hour, minute);
      r.effect.Scheduled? ==> !r.effect.result.outcome.CancelledDisabled?
  {
  }

  /** A re-armed alarm after a time change fires at the new time, within the next day. */
  lemma UpdateTimeArmsNewTime(s: SettingsState, prefs: Store, a: Alarms, p: Platform, c: Clock, hour: int, minute: int)
    requires InSync(s, prefs) && s.notificationsEnabled
    requires p.sdkInt < ApiS || p.canScheduleExactAlarms
    requires p.alarmCallSucceeds && WithinToday(c) && ValidTime(hour, minute)
    ensures
      var r := UpdateTime(s, prefs, a, p, c, hour, minute);
      && r.effect.Scheduled? && r.effect.result.outcome.Armed?
      && c.now < r.effect.result.outcome.trigger <= c.now + DayMs
      && r.effect.result.outcome.trigger == NextTrigger(hour, minute, c)
  {
  }
}

=== FILE: preferences.dfy ===
/**
  `PreferencesManager`: one SharedPreferences file seen as a map from key to
  typed value. The daily quote lives under three string keys, the
  notification settings under a boolean and two integer keys.
*/
module Preferences {
  import opened Wrappers
  import opened Quotes

  datatype PrefValue = Str(s: string) | Flag(b: bool) | Num(n: int)

  type Store = map<string, PrefValue>

  const EmptyStore: Store := map[]

  const KeyQuoteText := "daily_quote_text"
  const KeyQuoteAuthor := "daily_quote_author"
  const KeyQuoteDate := "daily_quote_date"
  const KeyNotifEnabled := "notif_enabled"
  const KeyNotifHour := "notif_hour"
  const KeyNotifMinute := "notif_minute"

  /** Default notification time when nothing is stored: 08:00. */
  const DefaultHour := 8
  const DefaultMinute := 0

  /** `getString(key, null)`. */
  function GetString(p: Store, key: string): Option<string> {
    if key in p && p[key].Str? then Some(p[key].s) else None
  }

  /** `getBoolean(key, default)`. */
  function GetBoolean(p: Store, key: string, default: bool): bool {
    if key in p && p[key].Flag? then p[key].b else default
  }

  /** `getInt(key, default)`. */
  function GetInt(p: Store, key: string, default: int): int {
    if key in p && p[key].Num? then p[key].n else default
  }

  /** The six keys are pairwise distinct, so writes under one never disturb another. */
  lemma KeysDistinct()
    ensures KeyQuoteText != KeyQuoteAuthor && KeyQuoteText != KeyQuoteDate && KeyQuoteAuthor != KeyQuoteDate
    ensures KeyQuoteText != KeyNotifEnabled && KeyQuoteText != KeyNotifHour && KeyQuoteText != KeyNotifMinute
    ensures KeyQuoteAuthor != KeyNotifEnabled && KeyQuoteAuthor != KeyNotifHour && KeyQuoteAuthor != KeyNotifMinute
    ensures KeyQuoteDate != KeyNotifEnabled && KeyQuoteDate != KeyNotifHour && KeyQuoteDate != KeyNotifMinute
    ensures KeyNotifEnabled != KeyNotifHour && KeyNotifEnabled != KeyNotifMinute && KeyNotifHour != KeyNotifMinute
  {
    assert KeyQuoteText[6] == 'q' && KeyNotifEnabled[6] == 'e' && KeyNotifHour[6] == 'h' && KeyNotifMinute[6] == 'm';
    assert KeyQuoteText[12] == 't' && KeyQuoteAuthor[12] == 'a' && KeyQuoteDate[12] == 'd';
  }

  /** `saveDailyQuote(quote)`: text, author and today's ISO date, written together. */
  function SaveDailyQuote(p: Store, q: Quote, today: string): (r: Store)
    ensures GetDailyQuote(r) == Some(MakeQuote(q.text, q.author))
    ensures GetLastQuoteDate(r) == Some(today)
    ensures forall d :: IsQuoteFromToday(r, d) <==> d == today
    ensures NotificationSettingsOf(r) == NotificationSettingsOf(p)
  {
    KeysDistinct();
    p[KeyQuoteText := Str(q.text)][KeyQuoteAuthor := Str(q.author)][KeyQuoteDate := Str(today)]
  }

  /** `getDailyQuote()`: a quote only when both the text and the author are stored. */
  function GetDailyQuote(p: Store): (r: Option<Quote>)
    ensures r.Some? <==> GetString(p, KeyQuoteText).Some? && GetString(p, KeyQuoteAuthor).Some?
    ensures r.Some? ==> r.value.html == None
  {
    match (GetString(p, KeyQuoteText), GetString(p, KeyQuoteAuthor))
    case (Some(text), Some(author)) => Some(MakeQuote(text, author))
    case _ => None
  }

  /** `getLastQuoteDate()`. */
  function GetLastQuoteDate(p: Store): Option<string> {
    GetString(p, KeyQuoteDate)
  }

  /** `isQuoteFromToday()`: the stored date string equals today's; a missing date never does. */
  predicate IsQuoteFromToday(p: Store, today: string) {
    GetLastQuoteDate(p) == Some(today)
  }

  /** A store with no date never reports a quote from today. */
  lemma NoDateNotToday(p: Store, today: string)
    requires KeyQuoteDate !in p
    ensures !IsQuoteFromToday(p, today)
  {
  }

  /** `setNotificationsEnabled(enabled)`. */
  function SetNotificationsEnabled(p: Store, enabled: bool): (r: Store)
    ensures AreNotificationsEnabled(r) == enabled
    ensures GetNotificationTime(r) == GetNotificationTime(p)
    ensures DailyQuoteOf(r) == DailyQuoteOf(p)
  {
    KeysDistinct();
    p[KeyNotifEnabled := Flag(enabled)]
  }

  /** `areNotificationsEnabled()`, off unless stored. */
  predicate AreNotificationsEnabled(p: Store) {
    GetBoolean(p, KeyNotifEnabled, false)
  }

  /** `setNotificationTime(hour, minute)`. */
  function SetNotificationTime(p: Store, hour: int, minute: int): (r: Store)
    ensures GetNotificationTime(r) == (hour, minute)
    ensures AreNotificationsEnabled(r) == AreNotificationsEnabled(p)
    ensures DailyQuoteOf(r) == DailyQuoteOf(p)
  {
    KeysDistinct();
    p[KeyNotifHour := Num(hour)][KeyNotifMinute := Num(minute)]
  }

  /** `getNotificationTime()`: each component read separately, 8 and 0 by default. */
  function GetNotificationTime(p: Store): (int, int) {
    (GetInt(p, KeyNotifHour, DefaultHour), GetInt(p, KeyNotifMinute, DefaultMinute))
  }

  /** Everything the daily-quote accessors can observe. */
  function DailyQuoteOf(p: Store): (Option<string>, Option<string>, Option<string>) {
    (GetString(p, KeyQuoteText), GetString(p, KeyQuoteAuthor), GetString(p, KeyQuoteDate))
  }

  /** Everything the notification accessors can observe. */
  function NotificationSettingsOf(p: Store): (bool, (int, int)) {
    (AreNotificationsEnabled(p), GetNotificationTime(p))
  }

  /** An empty store yields no quote, no date, notifications off and the 08:00 default. */
  lemma EmptyStoreDefaults(today: string)
    ensures GetDailyQuote(EmptyStore) == None
    ensures !IsQuoteFromToday(EmptyStore, today)
    ensures !AreNotificationsEnabled(EmptyStore)
    ensures GetNotificationTime(EmptyStore) == (8, 0)
  {
  }
}

=== FILE: quote_buffer.dfy ===
/**
  The older home view-model (`mainui/HomeViewModel`): a buffer of fetched
  quotes with a cursor. "Next" walks the buffer round-robin and fetches
  only when the buffer is empty; a successful fetch replaces the buffer.
*/
module QuoteBuffer {
  import opened Quotes
  import opened QuoteRepository

  datatype BufferState = BufferState(buffer: seq<Quote>, index: int, current: Quote, isLoading: bool)

  /** Before the first fetch: empty buffer, cursor 0, placeholder quote, loading. */
  const InitialBuffer: BufferState := BufferState([], 0, LoadingQuote, true)

  /** The cursor points into a non-empty buffer and the shown quote is the one under it. */
  predicate Valid(s: BufferState) {
    |s.buffer| > 0 ==> 0 <= s.index < |s.buffer| && s.current == s.buffer[s.index]
  }

  /** `fetchQuotes()`: a non-empty result replaces the buffer and shows its first quote. */
  function FetchQuotes(s: BufferState, api: ApiOutcome): (r: BufferState)
    ensures Valid(s) ==> Valid(r)
    ensures !r.isLoading
    ensures |FetchRandomQuotes(api)| > 0 ==> r.buffer == FetchRandomQuotes(api) && r.index == 0 && r.current == r.buffer[0]
    ensures |FetchRandomQuotes(api)| == 0 ==> r.buffer == s.buffer && r.index == s.index && r.current == s.current
  {
    var quotes := FetchRandomQuotes(api);
    if |quotes| > 0 then BufferState(quotes, 0, quotes[0], false)
    else s.(isLoading := false)
  }

  /** One round-robin step over a non-empty buffer: the buffer is unchanged, nothing is fetched. */
  function Rotate(s: BufferState): (r: BufferState)
    requires Valid(s) && |s.buffer| > 0
    ensures Valid(r)
    ensures r.buffer == s.buffer && r.isLoading == s.isLoading
    ensures r.index == (s.index + 1) % |s.buffer|
  {
    var i := (s.index + 1) % |s.buffer|;
    s.(index := i, current := s.buffer[i])
  }

  /**
    `getNextQuote()`: rotate when the buffer holds quotes, otherwise fetch.
    Under the invariant the cursor is non-negative, so Kotlin's `%` and
    Dafny's agree.
  */
  function GetNextQuote(s: BufferState, api: ApiOutcome): (r: BufferState)
    requires Valid(s)
    ensures Valid(r)
    ensures |s.buffer| > 0 ==> r == Rotate(s)
    ensures |s.buffer| == 0 ==> r == FetchQuotes(s, api)
  {
    if |s.buffer| > 0 then Rotate(s) else FetchQuotes(s, api)
  }

  /** `n` presses of "next" on a non-empty buffer. */
  function RotateN(s: BufferState, n: nat): (r: BufferState)
    requires Valid(s) && |s.buffer| > 0
    ensures Valid(r) && r.buffer == s.buffer
    decreases n
  {
    if n == 0 then s else RotateN(Rotate(s), n - 1)
  }

  /** After `n` presses the cursor has advanced by `n` modulo the buffer length. */
  lemma {:induction false} RotateNIndex(s: BufferState, n: nat)
    requires Valid(s) && |s.buffer| > 0
    ensures RotateN(s, n).index == (s.index + n) % |s.buffer|
    ensures RotateN(s, n).isLoading == s.isLoading
    decreases n
  {
    if n > 0 {
      var len := |s.buffer|;
      var t := Rotate(s);
      RotateNIndex(t, n - 1);
      StepIndex(s.index, t.index, RotateN(s, n).index, n, len);
    }
  }

  /** Euclidean division is unique: a quotient-remainder split with the remainder in range is the one `%` gives. */
  lemma ModUnique(x: int, k: int, r: int, len: int)
    requires len > 0 && 0 <= r < len && x == k * len + r
    ensures x % len == r
  {
    var q := x / len;
    assert (k - q) * len == x % len - r;
    if k - q >= 1 {
      assert false;
    } else if k - q <= -1 {
      assert false;
    }
  }

  /** The cursor arithmetic of one step followed by `n - 1` more. */
  lemma StepIndex(i: int, a: int, b: int, n: nat, len: int)
    requires len > 0 && 0 <= i && n > 0
    requires a == (i + 1) % len && b == (a + (n - 1)) % len
    ensures b == (i + n) % len
  {
    ModAddOne(i, n, len);
  }

  lemma ModAddOne(i: int, n: nat, len: int)
    requires len > 0 && 0 <= i && n > 0
    ensures ((i + 1) % len + (n - 1)) % len == (i + n) % len
  {
    var q1 := (i + 1) / len;
    var k := (i + n) / len;
    var r := (i + n) % len;
    assert (i + 1) % len + (n - 1) == (k - q1) * len + r;
    ModUnique((i + 1) % len + (n - 1), k - q1, r, len);
  }

  lemma ModShift(a: int, q: int, len: int)
    requires len > 0
    ensures (a + q * len) % len == a % len
  {
    assert a + q * len == (a / len + q) * len + a % len;
    ModUnique(a + q * len, a / len + q, a % len, len);
  }

  /** Pressing "next" as many times as the buffer is long comes back to the starting quote. */
  lemma RotateFullCycle(s: BufferState)
    requires Valid(s) && |s.buffer| > 0
    ensures RotateN(s, |s.buffer|) == s
  {
    var len := |s.buffer|;
    RotateNIndex(s, len);
    ModShift(s.index, 1, len);
    ModUnique(s.index, 0, s.index, len);
    var r := RotateN(s, len);
    assert r.index == s.index;
    assert r.current == s.buffer[s.index] == s.current;
  }

  lemma ModStep(a: int, len: int)
    requires len > 0
    ensures (a % len + 1) % len == (a + 1) % len
  {
    assert a + 1 == a % len + 1 + (a / len) * len;
    ModShift(a % len + 1, a / len, len);
  }

  /** The quotes shown by `n` presses of "next" on a non-empty buffer, in order. */
  method NextQuotes(s: BufferState, n: nat) returns (shown: seq<Quote>)
    requires Valid(s) && |s.buffer| > 0
    ensures |shown| == n
    ensures forall k :: 0 <= k < n ==> shown[k] == s.buffer[(s.index + k + 1) % |s.buffer|]
  {
    shown := [];
    var cur := s;
    var k := 0;
    while k < n
      invariant 0 <= k <= n
      invariant Valid(cur) && cur.buffer == s.buffer
      invariant cur.index == (s.index + k) % |s.buffer|
      invariant |shown| == k
      invariant forall j :: 0 <= j < k ==> shown[j] == s.buffer[(s.index + j + 1) % |s.buffer|]
    {
      ModStep(s.index + k, |s.buffer|);
      cur := GetNextQuote(cur, Failed);
      shown := shown + [cur.current];
      k := k + 1;
    }
  }
}

=== FILE: quote_repository.dfy ===
/**
  `QuoteRepository`: the API fetch with its offline fallback, and the
  favourite toggle on top of the DAO. The toggle trusts the status its
  caller passes in; it does not read the table first.
*/
module QuoteRepository {
  import opened Wrappers
  import opened Quotes
  import opened FavoriteDao
  import opened Seqs

  /** The quote returned when the API call throws. */
  const OfflineQuote: Quote := MakeQuote("Failure is simply the opportunity to begin again.", "Henry Ford")

  /** `fetchRandomQuotes()`: the API's list as returned, or the single offline quote if the call throws. */
  function FetchRandomQuotes(api: ApiOutcome): (r: seq<Quote>)
    ensures api.Failed? ==> r == [OfflineQuote]
    ensures api.Fetched? ==> r == api.quotes
  {
    match api
    case Fetched(quotes) => quotes
    case Failed => [OfflineQuote]
  }

  /** The fetch never fails: its result is empty exactly when the API itself answered with an empty list. */
  lemma FetchEmptyOnlyFromApi(api: ApiOutcome)
    ensures |FetchRandomQuotes(api)| == 0 <==> api == Fetched([])
    ensures api.Failed? ==> FetchRandomQuotes(api)[0] == OfflineQuote
  {
  }

  /**
    `toggleFavorite(quote, isFavorite)`: with `isFavorite` true every row
    with the quote's text is deleted; otherwise one new row is inserted.
  */
  function ToggleFavorite(t: Table, q: Quote, isFavorite: bool): (r: Table)
    ensures Valid(t) ==> Valid(r)
    ensures isFavorite ==> !IsFavorite(r, q.text) && forall row :: row in r.rows ==> row in t.rows
    ensures !isFavorite ==>
      && IsFavorite(r, q.text)
      && |r.rows| == |t.rows| + 1
      && CountText(r.rows, q.text) == CountText(t.rows, q.text) + 1
      && (forall row :: row in t.rows ==> row in r.rows)
      && (forall row :: row in r.rows && row !in t.rows ==> row.text == q.text && row.author == q.author)
    ensures forall row: FavoriteQuote :: row.text != q.text ==> (row in r.rows <==> row in t.rows)
  {
    if isFavorite then DeleteByText(t, q.text)
    else
      var r := Insert(t, FavoriteQuote(0, q.text, q.author));
      assert r == InsertFresh(t, q.text, q.author);
      IsFavoriteRows(r, q.text);
      r
  }

  /** Membership of any other text is unaffected by a toggle. */
  lemma ToggleKeepsOtherMembership(t: Table, q: Quote, isFavorite: bool, other: string)
    requires other != q.text
    ensures IsFavorite(ToggleFavorite(t, q, isFavorite), other) <==> IsFavorite(t, other)
  {
    var r := ToggleFavorite(t, q, isFavorite);
    if IsFavorite(t, other) {
      var i :| 0 <= i < |t.rows| && t.rows[i].text == other;
      assert t.rows[i] in r.rows;
    }
    if IsFavorite(r, other) {
      var i :| 0 <= i < |r.rows| && r.rows[i].text == other;
      assert r.rows[i] in t.rows;
    }
  }

  /** Given the true current status, a toggle negates membership of the quote's text. */
  lemma ToggleWithTrueStatusNegates(t: Table, q: Quote)
    ensures IsFavorite(ToggleFavorite(t, q, IsFavorite(t, q.text)), q.text) == !IsFavorite(t, q.text)
  {
  }

  /** Two toggles, each given the true current status, restore the original membership. */
  lemma ToggleTwiceRestores(t: Table, q: Quote)
    ensures
      var t1 := ToggleFavorite(t, q, IsFavorite(t, q.text));
      var t2 := ToggleFavorite(t1, q, IsFavorite(t1, q.text));
      IsFavorite(t2, q.text) == IsFavorite(t, q.text)
  {
    ToggleWithTrueStatusNegates(t, q);
    ToggleWithTrueStatusNegates(ToggleFavorite(t, q, IsFavorite(t, q.text)), q);
  }

  /**
    A toggle made with a stale `false` while the text is already stored adds
    a second row with that text: text is not unique in the table.
  */
  lemma StaleToggleDuplicates(t: Table, q: Quote)
    requires IsFavorite(t, q.text)
    ensures CountText(ToggleFavorite(t, q, false).rows, q.text) >= 2
  {
    IsFavoriteRows(t, q.text);
  }

  /** A toggle made with a stale `true` while the text is absent changes no rows. */
  lemma StaleDeleteIsNoOp(t: Table, q: Quote)
    requires !IsFavorite(t, q.text)
    ensures ToggleFavorite(t, q, true).rows == t.rows
  {
    var keep := (row: FavoriteQuote) => row.text != q.text;
    assert forall i :: 0 <= i < |t.rows| ==> keep(t.rows[i]);
    FilterKeepsAll(t.rows, keep);
  }
}

=== FILE: quotes.dfy ===
/** The quote record shared by every screen, and the outcome of one call to the quote API. */
module Quotes {
  import opened Wrappers

  /** A quote as the API returns it; `html` is optional and never persisted. */
  datatype Quote = Quote(text: string, author: string, html: Option<string>)

  /** `Quote(text, author)` with the constructor's default `html = null`. */
  function MakeQuote(text: string, author: string): Quote {
    Quote(text, author, None)
  }

  /** The placeholder both home view-models show before their first load completes. */
  const LoadingQuote: Quote := MakeQuote("Loading...", "Please wait")

  /** One call of the remote quote endpoint: it returns a list (possibly empty) or throws. */
  datatype ApiOutcome = Fetched(quotes: seq<Quote>) | Failed
}

=== FILE: seqs.dfy ===
/** Kotlin's `List.filter`, defined once and used by the DAO deletes and the favourites lists. */
module Seqs {

  /** The elements of `s` that satisfy `keep`, in their original order. */
  function Filter<T(!new)>(s: seq<T>, keep: T -> bool): (r: seq<T>)
    ensures |r| <= |s|
    ensures forall x :: x in r <==> x in s && keep(x)
    ensures forall i :: 0 <= i < |r| ==> keep(r[i])
  {
    if |s| == 0 then []
    else if keep(s[0]) then [s[0]] + Filter(s[1..], keep)
    else Filter(s[1..], keep)
  }

  /** Filtering distributes over concatenation: the survivors keep their relative order. */
  lemma {:induction false} FilterAppend<T(!new)>(s: seq<T>, t: seq<T>, keep: T -> bool)
    ensures Filter(s + t, keep) == Filter(s, keep) + Filter(t, keep)
  {
    if |s| == 0 {
      assert s + t == t;
    } else {
      assert (s + t)[1..] == s[1..] + t;
      FilterAppend(s[1..], t, keep);
    }
  }

  /** When every element is kept, filtering returns the sequence itself. */
  lemma {:induction false} FilterKeepsAll<T(!new)>(s: seq<T>, keep: T -> bool)
    requires forall i :: 0 <= i < |s| ==> keep(s[i])
    ensures Filter(s, keep) == s
  {
    if |s| > 0 {
      FilterKeepsAll(s[1..], keep);
    }
  }

  /** Filtering twice with the same predicate is filtering once. */
  lemma FilterIdempotent<T(!new)>(s: seq<T>, keep: T -> bool)
    ensures Filter(Filter(s, keep), keep) == Filter(s, keep)
  {
    FilterKeepsAll(Filter(s, keep), keep);
  }

  /** Filtering a sequence without repeated elements yields one without repeated elements. */
  lemma {:induction false} FilterDistinct<T(!new)>(s: seq<T>, keep: T -> bool)
    requires forall i, j :: 0 <= i < j < |s| ==> s[i] != s[j]
    ensures forall i, j :: 0 <= i < j < |Filter(s, keep)| ==> Filter(s, keep)[i] != Filter(s, keep)[j]
  {
    if |s| > 0 {
      FilterDistinct(s[1..], keep);
      assert s[0] !in s[1..];
    }
  }
}

=== FILE: signup_form.dfy ===
/**
  `SignUpViewModel`: three text fields, a validation chain (all fields
  filled, then password length), and the provider call.
*/
module SignUpForm {
  import opened Wrappers
  import opened Text
  import Auth

  datatype SignUpState = Idle | Loading | Success | Error(message: string)

  datatype SignUpVm = SignUpVm(state: SignUpState, fullName: string, email: string, password: string)

  const InitialSignUp: SignUpVm := SignUpVm(Idle, "", "", "")

  const FillAllFields := "Please fill in all fields"
  const PasswordTooShort := "Password must be at least 6 characters"
  const MinPasswordLength := 6

  /**
    The view-model after `signUp()`, the states emitted in order, and the
    credentials sent to the provider, if it was called. The full name is
    checked but never sent.
  */
  datatype SignUpStep = SignUpStep(vm: SignUpVm, emitted: seq<SignUpState>, request: seq<(string, string)>)

  function UpdateFullName(vm: SignUpVm, name: string): (r: SignUpVm)
    ensures r.fullName == name
    ensures (r.state, r.email, r.password) == (vm.state, vm.email, vm.password)
  {
    vm.(fullName := name)
  }

  function UpdateEmail(vm: SignUpVm, e: string): (r: SignUpVm)
    ensures r.email == e
    ensures (r.state, r.fullName, r.password) == (vm.state, vm.fullName, vm.password)
  {
    vm.(email := e)
  }

  function UpdatePassword(vm: SignUpVm, p: string): (r: SignUpVm)
    ensures r.password == p
    ensures (r.state, r.fullName, r.email) == (vm.state, vm.fullName, vm.email)
  {
    vm.(password := p)
  }

  /** The input the chain accepts. */
  predicate Acceptable(vm: SignUpVm) {
    !IsBlank(vm.fullName) && !IsBlank(vm.email) && !IsBlank(vm.password) && |vm.password| >= MinPasswordLength
  }

  /** `signUp()`. */
  function SignUp(vm: SignUpVm, o: Auth.ProviderOutcome): (r: SignUpStep)
    ensures |r.emitted| > 0 && r.vm.state == r.emitted[|r.emitted| - 1]
    ensures (r.vm.fullName, r.vm.email, r.vm.password) == (vm.fullName, vm.email, vm.password)
    ensures |r.request| > 0 <==> Acceptable(vm)
    ensures |r.request| > 0 ==> r.request == [(vm.email, vm.password)]
    ensures IsBlank(vm.fullName) || IsBlank(vm.email) || IsBlank(vm.password) ==> r.emitted == [Error(FillAllFields)]
    ensures !IsBlank(vm.fullName) && !IsBlank(vm.email) && !IsBlank(vm.password) && |vm.password| < MinPasswordLength ==>
      r.emitted == [Error(PasswordTooShort)]
    ensures Acceptable(vm) ==> |r.emitted| == 2 && r.emitted[0] == Loading
    ensures Acceptable(vm) ==> (r.vm.state == Success <==> o.Completed?)
    ensures Acceptable(vm) && o.Threw? ==> r.vm.state == Error(o.message.GetOr(Auth.SignUpFailed))
  {
    if IsBlank(vm.fullName) || IsBlank(vm.email) || IsBlank(vm.password) then
      SignUpStep(vm.(state := Error(FillAllFields)), [Error(FillAllFields)], [])
    else if |vm.password| < MinPasswordLength then
      SignUpStep(vm.(state := Error(PasswordTooShort)), [Error(PasswordTooShort)], [])
    else
      var final := match Auth.SignUp(o) case Success => Success case Error(m) => Error(m);
      SignUpStep(vm.(state := final), [Loading, final], [(vm.email, vm.password)])
  }

  function ResetState(vm: SignUpVm): (r: SignUpVm)
    ensures r.state == Idle
    ensures (r.fullName, r.email, r.password) == (vm.fullName, vm.email, vm.password)
  {
    vm.(state := Idle)
  }

  /**
    A blank field is reported even when the password is also too short:
    the length message appears only once every field is filled.
  */
  lemma BlankBeforeLength(vm: SignUpVm, o: Auth.ProviderOutcome)
    requires |vm.password| < MinPasswordLength
    ensures SignUp(vm, o).emitted == [Error(if IsBlank(vm.fullName) || IsBlank(vm.email) || IsBlank(vm.password) then FillAllFields else PasswordTooShort)]
  {
  }

  /** A password of six spaces is blank, so it fails the first check, not the second. */
  lemma SpacesPasswordIsBlank(vm: SignUpVm, o: Auth.ProviderOutcome)
    requires vm.password == "      "
    ensures SignUp(vm, o).emitted == [Error(FillAllFields)]
  {
    assert IsBlank(vm.password);
  }

  /**
    Whatever the setters did before, what reaches the provider is the
    last email and password entered; the name changes nothing about it.
  */
  lemma RequestUsesLatestFields(vm: SignUpVm, name: string, e: string, p: string, o: Auth.ProviderOutcome)
    requires !IsBlank(name) && !IsBlank(e) && !IsBlank(p) && |p| >= MinPasswordLength
    ensures SignUp(UpdatePassword(UpdateEmail(UpdateFullName(vm, name), e), p), o).request == [(e, p)]
  {
  }

  /** A provider error with a blank message is shown as it is, blank. */
  lemma BlankProviderMessageShown(vm: SignUpVm)
    requires Acceptable(vm)
    ensures SignUp(vm, Auth.Threw(Some(""))).vm.state == Error("")
  {
  }
}

=== FILE: startup_router.dfy ===
/**
  `MainActivity`: the start destination is decided once, from the intent's
  URI and the sign-in state; until then only a blank placeholder is drawn.
  A URI is abstracted to its printed form, its fragment and its host.
*/
module StartupRouter {
  import opened Wrappers
  import opened Text
  import opened Auth

  /** `Uri.toString()`, `Uri.fragment` and `Uri.host`; the last two may be absent. */
  datatype Uri = Uri(raw: string, fragment: Option<string>, host: Option<string>)

  /** The three destinations the activity can start on; the password-recovery screen is one of them. */
  datatype Route = Login | Home | NewPassword

  /** The two pieces of remembered state: the chosen destination and whether the choice was made. */
  datatype Router = Router(startDestination: Route, isAuthChecked: bool)

  const InitialRouter: Router := Router(Login, false)

  /** What is drawn: the blank placeholder, or the navigation graph started at a destination. */
  datatype Screen = Placeholder | NavGraph(start: Route)

  /**
    The recovery-link test shared by `onCreate` and `onNewIntent`. A null
    URI, fragment or host makes its comparison false; the last alternative
    is a conjunction, since `&&` binds tighter than `||`.
  */
  predicate IsRecovery(data: Option<Uri>) {
    match data
    case None => false
    case Some(u) =>
      || Contains(u.raw, "type=recovery")
      || (u.fragment.Some? && Contains(u.fragment.value, "type=recovery"))
      || u.host == Some("reset-password")
      || (u.host == Some("login-callback") && Contains(u.raw, "recovery"))
  }

  /** The launched effect: pick the destination, then open the gate. */
  function Resolve(r: Router, data: Option<Uri>, session: SessionOutcome): (r': Router)
    ensures r'.isAuthChecked
    ensures IsRecovery(data) ==> r'.startDestination == NewPassword
    ensures !IsRecovery(data) ==> (r'.startDestination == Home <==> IsUserLoggedIn(session))
    ensures r'.startDestination == NewPassword <==> IsRecovery(data)
  {
    var dest :=
      if IsRecovery(data) then NewPassword
      else if IsUserLoggedIn(session) then Home
      else Login;
    Router(dest, true)
  }

  /** The composition: nothing but the placeholder until the check is done. */
  function Render(r: Router): (s: Screen)
    ensures s.NavGraph? <==> r.isAuthChecked
    ensures s.NavGraph? ==> s.start == r.startDestination
  {
    if r.isAuthChecked then NavGraph(r.startDestination) else Placeholder
  }

  /**
    `onNewIntent`: the same test is evaluated (and only logged), and the
    router is left as it was.
  */
  function OnNewIntent(r: Router, data: Option<Uri>): (res: (Router, bool))
    ensures res.0 == r
    ensures res.1 <==> IsRecovery(data)
  {
    (r, IsRecovery(data))
  }

  /** Before the launched effect runs, a fresh activity shows only the placeholder. */
  lemma NothingBeforeCheck()
    ensures Render(InitialRouter) == Placeholder
  {
  }

  /** An activity started without a URI never takes the recovery route. */
  lemma NoDataIsNotRecovery(session: SessionOutcome)
    ensures !IsRecovery(None)
    ensures Resolve(InitialRouter, None, session).startDestination == (if session == HasUser then Home else Login)
  {
  }

  /** A recovery link wins over the sign-in state: signed in or not, the recovery screen opens. */
  lemma RecoveryBeatsSession(data: Option<Uri>, s1: SessionOutcome, s2: SessionOutcome)
    requires IsRecovery(data)
    ensures Render(Resolve(InitialRouter, data, s1)) == Render(Resolve(InitialRouter, data, s2)) == NavGraph(NewPassword)
  {
  }

  /** A provider exception while checking the session lands on the login screen. */
  lemma SessionErrorGoesToLogin(data: Option<Uri>)
    requires !IsRecovery(data)
    ensures Render(Resolve(InitialRouter, data, SessionThrew)) == NavGraph(Login)
  {
  }

  /**
    A recovery link that arrives while the app is running is recognised
    but does not move the already chosen start destination.
  */
  lemma NewIntentKeepsDestination(r: Router, data: Option<Uri>)
    requires IsRecovery(data) && r.startDestination != NewPassword
    ensures OnNewIntent(r, data).1 && Render(OnNewIntent(r, data).0) == Render(r)
    ensures Render(OnNewIntent(r, data).0) != NavGraph(NewPassword)
  {
  }

  /**
    Android prints the fragment after a `#` at the end of the URI; when it
    holds no escaped characters it is a suffix of the printed form.
  */
  predicate FragmentPrinted(u: Uri) {
    u.fragment.Some? ==> exists k :: 0 <= k <= |u.raw| && u.raw[k..] == u.fragment.value
  }

  /**
    For such a URI the fragment test adds nothing: it is recovery exactly
    when the printed form has "type=recovery", the host is
    "reset-password", or the host is "login-callback" and the printed form
    mentions "recovery".
  */
  lemma FragmentTestRedundant(u: Uri)
    requires FragmentPrinted(u)
    ensures IsRecovery(Some(u)) <==>
      || Contains(u.raw, "type=recovery")
      || u.host == Some("reset-password")
      || (u.host == Some("login-callback") && Contains(u.raw, "recovery"))
  {
    if u.fragment.Some? && Contains(u.fragment.value, "type=recovery") {
      var k :| 0 <= k <= |u.raw| && u.raw[k..] == u.fragment.value;
      ContainsSuffix(u.raw, k, "type=recovery");
    }
  }
}

=== FILE: text.dfy ===
/**
  The few Kotlin string operations the app's logic uses: `isBlank`,
  `contains` (with and without `ignoreCase`), and decimal formatting of
  non-negative integers. Case folding is ASCII only and whitespace is the
  fixed set of code points below.
*/
module Text {

  /** Characters `Char.isWhitespace` accepts (ASCII controls, separators and the Unicode space characters). */
  predicate IsWhitespace(c: char) {
    || c == ' ' || c == '\t' || c == '\n' || c == '\r'
    || c == '\U{000B}' || c == '\U{000C}'
    || ('\U{001C}' <= c <= '\U{001F}')
    || c == '\U{00A0}' || c == '\U{1680}'
    || ('\U{2000}' <= c <= '\U{200A}')
    || c == '\U{2028}' || c == '\U{2029}' || c == '\U{202F}' || c == '\U{205F}' || c == '\U{3000}'
  }

  /** Kotlin `isBlank`: empty, or whitespace only. */
  predicate IsBlank(s: string) {
    forall i :: 0 <= i < |s| ==> IsWhitespace(s[i])
  }

  predicate IsPrefix(p: string, s: string) {
    |p| <= |s| && s[..|p|] == p
  }

  /** Kotlin `s.contains(needle)`: `needle` occurs somewhere in `s` as a contiguous run. */
  predicate Contains(s: string, needle: string)
    decreases |s|
  {
    IsPrefix(needle, s) || (|s| > 0 && Contains(s[1..], needle))
  }

  /** A needle longer than the text never occurs in it. */
  lemma {:induction false} ContainsTooLong(s: string, needle: string)
    requires |needle| > |s|
    ensures !Contains(s, needle)
    decreases |s|
  {
    if |s| > 0 {
      ContainsTooLong(s[1..], needle);
    }
  }

  /** An occurrence in a suffix is an occurrence in the whole string. */
  lemma {:induction false} ContainsSuffix(s: string, k: nat, needle: string)
    requires k <= |s|
    requires Contains(s[k..], needle)
    ensures Contains(s, needle)
    decreases k
  {
    if k > 0 {
      assert s[1..][k - 1..] == s[k..];
      ContainsSuffix(s[1..], k - 1, needle);
    }
  }

  function LowerChar(c: char): (d: char)
    ensures 'A' <= c <= 'Z' ==> 'a' <= d <= 'z'
    ensures !('A' <= c <= 'Z') ==> d == c
  {
    if 'A' <= c <= 'Z' then (c as int - 'A' as int + 'a' as int) as char else c
  }

  function Lower(s: string): (r: string)
    ensures |r| == |s|
    ensures forall i :: 0 <= i < |s| ==> r[i] == LowerChar(s[i])
  {
    seq(|s|, i requires 0 <= i < |s| => LowerChar(s[i]))
  }

  /** Kotlin `s.contains(needle, ignoreCase = true)`, with ASCII case folding. */
  predicate ContainsIgnoreCase(s: string, needle: string) {
    Contains(Lower(s), Lower(needle))
  }

  /** Decimal digit character of `d`. */
  function DigitChar(d: nat): (c: char)
    requires d < 10
    ensures '0' <= c <= '9'
  {
    ('0' as int + d) as char
  }

  function DigitValue(c: char): (d: int)
  {
    c as int - '0' as int
  }

  /** Decimal rendering of a non-negative integer, as `toString` prints it (no leading zeros). */
  function NatToString(n: nat): (s: string)
    ensures |s| >= 1
    ensures forall i :: 0 <= i < |s| ==> '0' <= s[i] <= '9'
    ensures n < 10 <==> |s| == 1
    ensures 10 <= n < 100 <==> |s| == 2
    decreases n
  {
    if n < 10 then [DigitChar(n)] else NatToString(n / 10) + [DigitChar(n % 10)]
  }

  /** Reads back a run of decimal digits. */
  function ParseDigits(s: string): int
  {
    if |s| == 0 then 0 else 10 * ParseDigits(s[..|s| - 1]) + DigitValue(s[|s| - 1])
  }

  /** Decimal rendering is reversible: parsing the digits yields the number again. */
  lemma {:induction false} ParseNatToString(n: nat)
    ensures ParseDigits(NatToString(n)) == n
    decreases n
  {
    var s := NatToString(n);
    if n >= 10 {
      ParseNatToString(n / 10);
      assert s[..|s| - 1] == NatToString(n / 10);
    }
  }
}

=== FILE: time_format.dfy ===
/**
  The preferences screen's time label: the stored 24-hour time shown as
  `hh:mm AM` / `hh:mm PM` through `String.format("%02d:%02d %s", ...)`,
  with ASCII digits.
*/
module TimeFormat {
  import opened Text

  predicate IsPm(hour: int) {
    hour >= 12
  }

  function AmPm(hour: int): (s: string)
    ensures s == "PM" <==> IsPm(hour)
    ensures s == "AM" <==> !IsPm(hour)
  {
    if hour >= 12 then "PM" else "AM"
  }

  /** The 12-hour clock's hour: 0 becomes 12, 13..23 lose 12, everything else is kept. */
  function Hour12(hour: int): (h: int)
    ensures 0 <= hour <= 23 ==> 1 <= h <= 12
    ensures hour == 0 || hour == 12 ==> h == 12
    ensures 0 <= hour <= 23 ==> h % 12 == hour % 12
  {
    if hour > 12 then hour - 12 else if hour == 0 then 12 else hour
  }

  /** The reading back: a 12-hour clock hour and a half of the day give the 24-hour hour. */
  function Hour24(h12: int, pm: bool): int {
    if pm then (if h12 == 12 then 12 else h12 + 12)
    else (if h12 == 12 then 0 else h12)
  }

  /** Over a day the 12-hour reading loses nothing: the hour is recovered from it. */
  lemma Hour12RoundTrip(hour: int)
    requires 0 <= hour <= 23
    ensures Hour24(Hour12(hour), IsPm(hour)) == hour
  {
  }

  /** And every 12-hour reading is the reading of exactly one hour of the day. */
  lemma Hour24RoundTrip(h12: int, pm: bool)
    requires 1 <= h12 <= 12
    ensures 0 <= Hour24(h12, pm) <= 23
    ensures Hour12(Hour24(h12, pm)) == h12 && IsPm(Hour24(h12, pm)) == pm
  {
  }

  /** Two hours of the day with the same label are the same hour. */
  lemma LabelInjective(h1: int, h2: int)
    requires 0 <= h1 <= 23 && 0 <= h2 <= 23
    requires Hour12(h1) == Hour12(h2) && AmPm(h1) == AmPm(h2)
    ensures h1 == h2
  {
    Hour12RoundTrip(h1);
    Hour12RoundTrip(h2);
  }

  /**
    `%02d`: at least two characters, zero-padded; a negative number keeps
    its sign, which counts towards the width.
  */
  function Pad2(n: int): (s: string)
    ensures |s| >= 2
  {
    if n < 0 then "-" + NatToString(-n)
    else if n < 10 then "0" + NatToString(n)
    else NatToString(n)
  }

  /** On 0..99 the padding gives exactly two digits, and they read back as the number. */
  lemma Pad2TwoDigits(n: int)
    requires 0 <= n <= 99
    ensures |Pad2(n)| == 2 && '0' <= Pad2(n)[0] <= '9' && '0' <= Pad2(n)[1] <= '9'
    ensures ParseDigits(Pad2(n)) == n
  {
    ParseNatToString(n);
    if n < 10 {
      var s := Pad2(n);
      assert s[..1] == "0";
      assert ParseDigits(s[..1]) == 0 by {
        assert s[..1][..0] == [];
      }
    }
  }

  function FormatTime(hour: int, minute: int): string {
    Pad2(Hour12(hour)) + ":" + Pad2(minute) + " " + AmPm(hour)
  }

  /**
    For a valid time the label is `hh:mm XM`, eight characters, and the
    hour and minute read back from its digit pairs.
  */
  lemma FormatTimeLayout(hour: int, minute: int)
    requires 0 <= hour <= 23 && 0 <= minute <= 59
    ensures
      var s := FormatTime(hour, minute);
      && |s| == 8 && s[2] == ':' && s[5] == ' '
      && s[6..] == AmPm(hour)
      && Hour24(ParseDigits(s[..2]), s[6..] == "PM") == hour
      && ParseDigits(s[3..5]) == minute
  {
    Pad2TwoDigits(Hour12(hour));
    Pad2TwoDigits(minute);
    Hour12RoundTrip(hour);
    var s := FormatTime(hour, minute);
    assert s[..2] == Pad2(Hour12(hour));
    assert s[3..5] == Pad2(minute);
  }

  /** Midnight and noon both show 12, told apart only by the suffix. */
  lemma MidnightAndNoon()
    ensures Hour12(0) == 12 && AmPm(0) == "AM"
    ensures Hour12(12) == 12 && AmPm(12) == "PM"
  {
  }
}

=== FILE: wrappers.dfy ===
/** Kotlin's nullable values (`T?`) as an explicit option type. */
module Wrappers {

  datatype Option<+T> = None | Some(value: T) {

    /** Kotlin's elvis operator `x ?: default`. */
    function GetOr(default: T): T {
      match this
      case Some(v) => v
      case None => default
    }
  }
}
